=== FILE: README.md ===
# TEMPer clone firmware: a Dafny model

The firmware turns a Digispark (ATtiny85) with a DS18B20 1-Wire temperature
sensor into a device that a host sees as a USB "TEMPer" thermometer. This
project models and proves properties of its three sequential cores:

- **The 1-Wire bus master** (`w1.c`). It covers the Dallas/Maxim CRC-8 and
  the bit-banged byte write, byte read, multi-byte read and reset.
  - The CRC is a fold over the bytes, proved equal to the bit-serial shift
    register of Maxim Application Note 27, with its residue property.
  - The bus is a trace of `Drive(µs)`, `Float(µs)` and `Sample` events. The
    sensor's answers are the sequence of levels read at successive sample
    points. Sample points past the end of that sequence read high, as the
    pull-up gives when nothing drives the line.
  - Slot timing, bit order, "released when sampled" and presence detection
    are stated over that trace.
- **The TEMPer protocol emulator** (`main.c`):
  - `hexdigit` and `set_serial`, which turn the sensor's ROM ID into the USB
    serial string;
  - `usbFunctionWrite`, which decodes LED reports and 8-byte vendor
    commands;
  - `hadUsbReset`;
  - the body of the main loop: delivery of the pending interrupt report
    (with the two-packet "TEMPerF1" / ".2" reply), then one step of the
    18-state transaction that resets the sensor, starts a conversion, polls,
    reads the scratchpad and encodes the reading.

  The emulator state is an immutable record. The endpoint's readiness is an
  input of the loop step and the packet it sends is an output.
- **The Timer-1 time base** (`timer.c`): the overflow handler's
  millisecond/fraction accumulator, `millis()`, and `micros()` as a function
  of the overflow count, TCNT1 and TIFR. `F_CPU` is a parameter.

Bytes are `bv8`, so C's shifts, masks and 8-bit truncation carry over
directly. The 32-bit `unsigned long` wrap-around is written out with
`% 2^32`.

Modules:

- `Bits`: bytes, bits, least-significant-first order.
- `Crc8`: the CRC.
- `OneWire`: bus traces and the four bus operations.
- `Serial`: the serial string.
- `Temper`: the USB reports, delivery and transaction steps.
- `Timer`: the time base.

## Model

| member | source | states |
|---|---|---|
| Crc8.ComputeCrc | w1.c:26-41 | the two nested loops compute the left fold, from 0, of "xor the byte in, then 8 rounds of shift right and xor 0x8C when the bit shifted out is 1"; an empty buffer gives 0 |
| Crc8.CrcResidue | w1.c:30-40 | appending the CRC of any data to that data gives a message whose CRC is 0 |
| Crc8.CrcCheckIdentifiesCrc | w1.c:30-40 | conversely, a message whose CRC is 0 carries in its last byte the CRC of the bytes before it |
| Crc8.ByteStepIsSerial | w1.c:33-37 | one outer iteration equals shifting the byte's 8 bits, least significant first, through the Application Note 27 shift register |
| Crc8.CrcIsSerial | w1.c:26-41 | the CRC of any data is the Application Note 27 register run over the data's bit stream, least significant bit of each byte first |
| Crc8.AppNote27Example | w1.c:26-41 | the application note's worked ROM ID 02 1C B8 01 00 00 00 has CRC 0xA2, and the full 8-byte ROM checks to 0 |
| OneWire.Write | w1.c:43-66 | `w1_write(val)` emits exactly 8 write slots; slot i carries bit i of val; each slot is 6 µs low + 64 µs released for a 1 and 60 µs low + 10 µs released for a 0; 560 µs in total; released at the end; no sample taken |
| OneWire.WriteRoundTrip | w1.c:47-65 | a device that reads a slot as 1 exactly when the low pulse is shorter than 15 µs receives the bits of val in order, and so reassembles val |
| OneWire.ReadSlotFacts | w1.c:76-87 | a read slot lasts 70 µs, samples once 9 µs after release, and ends with the line released |
| OneWire.ReadByte | w1.c:68-91 | `w1_read_byte()` puts the level sampled in slot i at bit i; it runs 8 read slots of 70 µs, each sampling 9 µs after release, never while the master holds the line low |
| OneWire.ReadWriteOrder | w1.c:72-90 | if the device presents the bits of b least significant first, the byte read is b, the order `w1_write` uses |
| OneWire.Read | w1.c:93-100 | `w1_read(buf, len)` fills exactly `buf[0..len)`, in order, byte j from the levels of sample points 8j..8j+7; 8·len read slots |
| OneWire.Reset | w1.c:102-120 | `w1_reset()` reports a device iff the line reads low at its one sample; 480 + 70 + 410 = 960 µs; the sample is taken 70 µs after release; the line is released when sampled and at return |
| OneWire.ResetSamplesPresencePulse | w1.c:106-114 | the sample point lies inside any presence pulse that starts 15 to 60 µs after release and lasts 60 to 240 µs |
| Serial.HexDigit | main.c:197-200 | 0..9 map to '0'..'9' and 10..15 to 'A'..'F', digit i being the i-th of "0123456789ABCDEF" |
| Serial.DigitRoundTrip | main.c:197-200 | the digit of a nibble reads back as that nibble |
| Serial.SerialOf | main.c:215-218 | characters 2i and 2i+1 of the 16-character serial are the digits of the high and the low nibble of ROM byte i |
| Serial.HexRoundTrip | main.c:215-218 | the hex string of any bytes consists of hex digits and parses back to those bytes |
| Serial.SerialRoundTrip | main.c:215-218 | the serial string determines the 8-byte ROM ID |
| Serial.SetSerial | main.c:203-219 | with no presence pulse the serial is left as it was, after a 960 µs reset that samples once, 70 µs after release; otherwise characters 2i and 2i+1 become the digits of the high and low nibble of the byte read from sample points 1+8i..8+8i, the sensor decodes slots 0..7 after the reset as READ ROM (0x33), the bus work takes 960 + 8·70 + 64·70 µs, samples 70 µs after the reset's release and then 9 µs after release in each of 64 read slots, and never samples while the master holds the line low |
| Serial.ReadRomTrace | main.c:208-213 | the reset, the READ ROM write and the 8-byte read, in sequence, take 6000 µs, carry READ ROM to the sensor, sample once per read slot, and leave the line released |
| Serial.NoSensorKeepsDefault | main.c:54-58 | without a sensor the serial stays the initial sixteen 'F's |
| Serial.SetSerialReadsRom | main.c:203-219 | a sensor that answers the reset and sends its ROM ID least significant bit first sets the serial to that ID in hex |
| Temper.Decode | main.c:328-353 | a report is an LED report iff it is 1 byte long; it is the temperature query, init query 1 or init query 2 iff it is exactly the 8 bytes 01 80 33 01 00 00 00 00, 01 82 77 01 00 00 00 00 or 01 86 FF 01 00 00 00 00 |
| Temper.WriteReport | main.c:314-359 | returns 1 for 1-byte reports, 8 for 8-byte ones and 0 otherwise; an LED report sets `ledstate` to its byte and leaves the LED off only if the value changed and CAPS_LOCK (value 2, bit 1) is clear; the temperature query sets the report to 80 02 00.. and the state to 1, even mid-transaction, without touching the pending flag; init 1 sets bytes 0..2 to 82 01 00, keeps bytes 3..7 and sets pending; init 2 sets "TEMPerF1" and pending; every other report changes nothing |
| Temper.UsbReset | main.c:361-366 | a USB reset sets the state to 0 and clears pending; it leaves the report, `ledstate`, the LED and the scratch buffer unchanged |
| Temper.Deliver | main.c:402-411 | a packet is sent iff a report is pending and the endpoint is ready; the packet is the report; pending is cleared unless the report starts with 'T'; in that case bytes 0..1 become ".2" and it stays pending |
| Temper.InitReplyIsTwoPackets | main.c:402-411 | after init query 2 with no transaction running, the next two loop iterations with a free endpoint send "TEMPerF1" then ".2MPerF1", and then nothing is pending |
| Temper.DeliveryEnds | main.c:405-410 | any pending reply is cleared after at most two deliveries to a ready endpoint |
| Temper.TxStep | main.c:413-454 | the state stays in 0..17; each step goes n→n+1 or to 0; state 0 does nothing; state 4 stays, with nothing changed, until the poll reads 0xFF; in states 1 and 5 the transaction continues iff the reset sees a device; a failed reset in state 1 writes FF FF to report bytes 2..3, in state 5 FF FE, sets pending and returns to 0; states 2, 3, 6, 7 and 8..16 always advance by one; states 8..16 store the byte read at scratch offset n−8; states 2..4 and 6..16 leave the report and the pending flag alone; state 17 writes the encoded reading of scratch bytes 0..1 into report bytes 2..3, sets pending and returns to 0, with no bus traffic |
| Temper.SetupStep | main.c:413-445 | states 1..7: the resets in states 1 and 5 continue iff a device answers and otherwise write FF FF or FF FE, set pending and return to 0; state 4 advances iff the poll reads 0xFF and otherwise changes nothing; states 2, 3, 6 and 7 always advance by one, leaving the report and the pending flag alone |
| Temper.ReadoutStep | main.c:446-454 | states 8..16 advance by one, store the byte read at scratch offset n−8 and leave the report and the pending flag alone; state 17 writes the reading of scratch bytes 0..1 shifted left by 4 (`buf[1] << 4` or-ed with `buf[0] >> 4`, then `buf[0] << 4`) into report bytes 2..3, sets pending, returns to 0 and touches the bus not at all |
| Temper.LoopStep | main.c:398-455 | one loop iteration keeps the state well formed: the state number stays in 0..17, the report is 8 bytes and the scratch buffer 9 bytes |
| Temper.CommandsSent | main.c:422-445 | the sensor receives SKIP ROM (0xCC) in states 2 and 6, CONVERT T (0x44) in state 3 and READ SCRATCHPAD (0xBE) in state 7 |
| Temper.SetupSteps | main.c:413-445 | with a sensor that is present and has finished converting, states 1..7 lead to state 8 and change nothing else |
| Temper.ScratchpadSteps | main.c:446-448 | states 8..16 store the bytes read into the scratch buffer, in order |
| Temper.EncodeIsShift | main.c:449-451 | report bytes 2..3 are the 16-bit scratchpad reading shifted left by 4, truncated to 16 bits and sent high byte first |
| Temper.EncodeExample | main.c:450-451 | scratchpad bytes 50 05 encode as 55 00 |
| Temper.TransactionReads | main.c:413-448 | with a sensor that answers and sends scratchpad bytes sp, states 1..16 lead to state 17 with sp in the scratch buffer and nothing else changed |
| Temper.Transaction | main.c:413-454 | seventeen transaction steps against a responding sensor take state 1 back to 0 with the encoded reading in report bytes 2..3, the report pending and the other report bytes unchanged |
| Temper.PendingStays | main.c:413-454 | no transaction step clears a pending reply; only delivery or a USB reset does |
| Temper.QuietRun | main.c:398-455 | loop iterations that start with nothing pending send no packet and amount to the transaction steps alone |
| Temper.LoopTransaction | main.c:398-455 | with no earlier reply pending, seventeen loop iterations from state 1 send nothing and end with the encoded reading pending; the next iteration with a free endpoint sends that report |
| Temper.QueryWhilePending | main.c:335-340 | a temperature query leaves an earlier pending reply pending, so the next iteration with a free endpoint sends the cleared report 80 02 00 00 00 00 00 00 before any reading is taken |
| Temper.StartIsIdle | main.c:398-455 | the power-up state is well formed, idle (state 0) and has nothing to send |
| OneWire.ReadSlotSamplePoint | w1.c:76-84 | a read slot samples 6 + 9 = 15 µs after its falling edge, 9 µs after release |
| Timer.RatesOf | timer.c:35-38 | FRACT_INC is below FRACT_MAX = 125; MILLIS_INC·125 + FRACT_INC is the overflow period in 8 µs units |
| Timer.Overflow | timer.c:91-106 | the handler adds exactly 1 to the overflow count and MILLIS_INC or MILLIS_INC+1 to the milliseconds, modulo 2^32; a fraction below 125 stays below 125; the total `millis·125 + fract` grows by one overflow period, modulo 2^32·125 |
| Timer.RunConserves | timer.c:91-106 | from the zero initial values, after n overflows the count is n mod 2^32, the fraction is below 125 and `millis·125 + fract` is n times the overflow period, modulo 2^32·125 |
| Timer.RunConservesExactly | timer.c:40-42 | before the 32-bit millisecond count wraps, after n overflows, `millis·FRACT_MAX + fract == n·(MILLIS_INC·FRACT_MAX + FRACT_INC)` exactly |
| Timer.MillisAfterRun | timer.c:79-89 | `millis()` after n overflows is n overflow periods rounded down to whole milliseconds, modulo 2^32 |
| Timer.MicrosAsWritten | timer.c:62-77 | `micros()` as written is below 2^32 and equals `((count·256) + TCNT1)·(64 / cycles per µs)` modulo 2^32 whatever TIFR holds: the `&` of the masked flag (0 or 4) with the 0-or-1 comparison is always 0, so a pending overflow is never counted |
| Timer.Micros | timer.c:71-72 | the corrected `micros()`, with `&&` in place of `&` (see Findings): below 2^32, and equal to the code as written whenever no overflow is pending (TOV1 clear) or TCNT1 is 255 |
| Timer.MicrosCountsPendingOverflow | timer.c:67-76 | for the corrected `micros()`, a reading taken with the overflow pending (TOV1 set, TCNT1 < 255) equals the reading taken after the handler has counted it and the flag is clear |
| Timer.MicrosPendingOverflowExample | timer.c:62-77 | at 16.5 MHz with count 5, TCNT1 3 and the flag set, the code as written returns 5132 µs, but 6156 µs once the handler has counted the overflow; the corrected version gives 6156 µs before and after |

## Left out

- The USB descriptor tables, `usbFunctionDescriptor` and `usbFunctionSetup`
  (main.c:63-195 and 251-312). These are V-USB transport plumbing, constant
  data and foreign library types.
- `main`'s startup (main.c:368-396): the watchdog, `usbInit`, the disconnect
  delay loop and `sei`. This is hardware sequencing.
- The V-USB calls `usbPoll`, `usbInterruptIsReady3` and `usbSetInterrupt3`
  are not modelled. `usbInterruptIsReady3` becomes the ready input of
  `Temper.Deliver` and `Temper.LoopStep`, and `usbSetInterrupt3` the packet
  they output.
- Temper.LoopStep: `usbPoll` (main.c:400) is where V-USB calls
  `usbFunctionWrite` and `hadUsbReset`, at the start of an iteration before
  delivery. `LoopStep` has no input for host traffic. A host report or a bus
  reset in an iteration is modelled by applying `Temper.WriteReport` or
  `Temper.UsbReset` to the state before `LoopStep`, as
  `Temper.InitReplyIsTwoPackets` and `Temper.QueryWhilePending` do.
- Temper.RunLoop: the endpoint's readiness is one value for the whole run.
  Readiness does not matter to `Temper.QuietRun` and
  `Temper.LoopTransaction`, where nothing is pending.
- `read_temp` (main.c:221-249): it is never called. Its `sei()` after
  `return 0xFFFF` is unreachable, and it polls without bound.
- `w1_setup` (w1.c:122-126): raw register set-up. As written, it clears every
  other PORTB bit, whatever its comment says.
- `timer_init` (timer.c:44-60): raw register set-up.
- `w1.h`: declarations only.
- Real time is not modelled:
  - `_delay_us`, `ATOMIC_BLOCK`, `cli`/`sei` and interrupt preemption are
    left out. Durations survive only as integer microseconds on trace events.
  - The overflow handler is a plain sequential step, so the races between
    it and the main loop on the volatile counters are not modelled.
- The USB string descriptor header, `serno_str[0]`, is not modelled.
  `Serial` models the 16 characters at indices 1..16.
- `keyboard_report` and `idlerate` are not modelled; only the set-up
  requests use them.
- Serial.HexDigit: the C function accepts any `unsigned int`. The model
  requires a nibble (below 16), which is all `set_serial` ever passes.
- Temper.START: the C scratch buffer `buf` in `main` is uninitialised; the
  model starts it at zeros. State 17 reads only bytes 0 and 1, and states 8
  and 9 of the same pass always write them first.
- Timer.RunConservesExactly: the exact identity holds only until
  `millis·125 + fract` reaches 2^32·125. `Timer.RunConserves` states the
  general case modulo that value.
- Timer: TOV1 is bit 2 of TIFR. That value comes from the ATtiny85 device
  header, which is not part of this model. `F_CPU` is a parameter of at
  least 1 MHz, the smallest clock for which the source's macros are defined.

## Findings

| source | as written | input that shows it | evidently intended | confidence | as-written member | corrected member |
|---|---|---|---|---|---|---|
| timer.c:71 | `if ((TIFR & _BV(TOV1)) & (t < 255)) m++;`. The masked flag is 0 or 4 (TOV1 is bit 2) and the comparison is 0 or 1, so the bitwise `&` is always 0 and a pending overflow is never counted. | F_CPU = 16.5 MHz, overflow count 5, TCNT1 = 3, TOV1 set in TIFR: `micros()` returns 5132 | a logical `&&`, as in the Arduino core this code derives from: count the overflow the handler has not yet run for, giving 6156 | high: follows from the operator and the bit position; not executed | Timer.MicrosAsWritten | Timer.Micros |

=== FILE: bits.dfy ===
/** Bytes, single bits and the least-significant-bit-first order the 1-Wire
    bus uses to move a byte one slot at a time. */
module Bits {

  /** An 8-bit unsigned value (`uint8_t` / `uchar` in the firmware). */
  type byte = bv8

  /** `1 << i`, the mask that selects bit `i` of a byte. */
  function Mask(i: nat): byte
    requires i < 8
  {
    if i == 0 then 1 else Mask(i - 1) << 1
  }

  /** Bit `i` of `v`, counting from the least significant bit. */
  function Bit(v: byte, i: nat): bool
    requires i < 8
  {
    v & Mask(i) != 0
  }

  /** The eight bits of `v`, least significant first: the order in which
      they cross the bus. */
  function BitsOf(v: byte): (bits: seq<bool>)
    ensures |bits| == 8
    ensures forall i :: 0 <= i < 8 ==> bits[i] == Bit(v, i)
  {
    seq(8, i requires 0 <= i < 8 => Bit(v, i))
  }

  /** The byte whose bit `i` is `bits[i]`, for the first eight entries. */
  function ByteOfBits(bits: seq<bool>): (v: byte)
    requires |bits| >= 8
    ensures forall i :: 0 <= i < 8 ==> Bit(v, i) == bits[i]
  {
    (if bits[0] then 0x01 else 0) | (if bits[1] then 0x02 else 0) |
    (if bits[2] then 0x04 else 0) | (if bits[3] then 0x08 else 0) |
    (if bits[4] then 0x10 else 0) | (if bits[5] then 0x20 else 0) |
    (if bits[6] then 0x40 else 0) | (if bits[7] then 0x80 else 0)
  }

  /** Two bytes that agree on every bit are equal. */
  lemma BitsDetermineByte(a: byte, b: byte)
    requires forall i :: 0 <= i < 8 ==> Bit(a, i) == Bit(b, i)
    ensures a == b
  {
    assert Bit(a, 0) == Bit(b, 0) && Bit(a, 1) == Bit(b, 1);
    assert Bit(a, 2) == Bit(b, 2) && Bit(a, 3) == Bit(b, 3);
    assert Bit(a, 4) == Bit(b, 4) && Bit(a, 5) == Bit(b, 5);
    assert Bit(a, 6) == Bit(b, 6) && Bit(a, 7) == Bit(b, 7);
  }

  /** Splitting a byte into bits and reassembling them gives the byte back. */
  lemma ByteOfBitsOf(v: byte)
    ensures ByteOfBits(BitsOf(v)) == v
  {
    BitsDetermineByte(ByteOfBits(BitsOf(v)), v);
  }

  /** `v` shifted right `n` times by one position, as a loop that consumes a
      byte one bit per iteration does. */
  function ShiftRight(v: byte, n: nat): byte
  {
    if n == 0 then v else ShiftRight(v, n - 1) >> 1
  }

  lemma ShiftRightValues(v: byte)
    ensures ShiftRight(v, 1) == v >> 1 && ShiftRight(v, 2) == v >> 2
    ensures ShiftRight(v, 3) == v >> 3 && ShiftRight(v, 4) == v >> 4
    ensures ShiftRight(v, 5) == v >> 5 && ShiftRight(v, 6) == v >> 6
    ensures ShiftRight(v, 7) == v >> 7 && ShiftRight(v, 8) == 0
  {
  }

  /** After `n` shifts, bit 0 holds what was bit `n`. */
  lemma ShiftRightBit(v: byte, n: nat)
    requires n < 8
    ensures (ShiftRight(v, n) & 1 == 1) == Bit(v, n)
  {
    ShiftRightValues(v);
    if n == 0 {
    } else if n == 1 {
    } else if n == 2 {
    } else if n == 3 {
    } else if n == 4 {
    } else if n == 5 {
    } else if n == 6 {
    } else {
    }
  }

  lemma MaskValues()
    ensures Mask(0) == 0x01 && Mask(1) == 0x02 && Mask(2) == 0x04 && Mask(3) == 0x08
    ensures Mask(4) == 0x10 && Mask(5) == 0x20 && Mask(6) == 0x40 && Mask(7) == 0x80
  {
  }

  /** Distinct bit masks share no bit. */
  lemma MaskDisjoint(i: nat, k: nat)
    requires i < 8 && k < 8 && i != k
    ensures Mask(i) & Mask(k) == 0
  {
    MaskValues();
  }

  lemma MaskNonZero(i: nat)
    requires i < 8
    ensures Mask(i) != 0
  {
    MaskValues();
  }

  /** `&` distributes over `|`, and an `|` is non-zero iff a side is. */
  lemma OrAnd(x: byte, a: byte, m: byte)
    ensures ((x | a) & m != 0) == (x & m != 0 || a & m != 0)
  {
    assert (x | a) & m == (x & m) | (a & m);
  }

  /** Two masks overlap iff they select the same bit. */
  lemma MaskOverlap(i: nat, k: nat)
    requires i < 8 && k < 8
    ensures (Mask(i) & Mask(k) != 0) == (i == k)
  {
    if i == k {
      MaskNonZero(i);
    } else {
      MaskDisjoint(i, k);
    }
  }

  /** Setting bit `i` with `|` changes bit `i` only. */
  lemma OrMaskBit(x: byte, i: nat, k: nat)
    requires i < 8 && k < 8
    ensures Bit(x | Mask(i), k) == (Bit(x, k) || i == k)
  {
    OrAnd(x, Mask(i), Mask(k));
    MaskOverlap(i, k);
  }
}

=== FILE: crc8.dfy ===
/** The Dallas/Maxim 1-Wire CRC-8 (polynomial x^8 + x^5 + x^4 + 1, used
    reflected as 0x8C), as computed byte-wise by `w1_crc`, together with the
    bit-serial shift register of Maxim Application Note 27 that it
    implements. */
module Crc8 {
  import opened Bits

  /** The reflected generator polynomial. */
  const POLY: byte := 0x8C

  /** One inner-loop round: shift right, fold the polynomial back in when the
      bit shifted out was 1. */
  function Round(crc: byte): byte
  {
    (crc >> 1) ^ (if crc & 1 == 1 then POLY else 0)
  }

  /** `k` rounds applied to `crc`. */
  function Rounds(crc: byte, k: nat): byte
  {
    if k == 0 then crc else Round(Rounds(crc, k - 1))
  }

  /** One outer-loop iteration: xor the data byte in, then eight rounds. */
  function ByteStep(crc: byte, b: byte): byte
  {
    Rounds(crc ^ b, 8)
  }

  /** The CRC of `data`: a left fold of `ByteStep` starting from 0. */
  function Crc(data: seq<byte>): byte
  {
    if |data| == 0 then 0 else ByteStep(Crc(data[..|data| - 1]), data[|data| - 1])
  }

  /** `w1_crc(buf, len)`, with the two nested counting loops of the source. */
  method ComputeCrc(buf: seq<byte>) returns (crc: byte)
    requires |buf| < 256
    ensures crc == Crc(buf)
    ensures |buf| == 0 ==> crc == 0
  {
    crc := 0;
    var i := 0;
    while i < |buf|
      invariant 0 <= i <= |buf|
      invariant crc == Crc(buf[..i])
    {
      assert buf[..i + 1][..i] == buf[..i];
      crc := crc ^ buf[i];
      ghost var start := crc;
      var j := 0;
      while j < 8
        invariant 0 <= j <= 8
        invariant crc == Rounds(start, j)
      {
        crc := (crc >> 1) ^ (if crc & 1 == 1 then 0x8C else 0);
        j := j + 1;
      }
      i := i + 1;
    }
    assert buf[..i] == buf;
  }

  /** Appending one byte to the data advances the CRC by one `ByteStep`. */
  lemma CrcAppend(data: seq<byte>, b: byte)
    ensures Crc(data + [b]) == ByteStep(Crc(data), b)
  {
    assert (data + [b])[..|data|] == data;
  }

  /** Residue property: appending the CRC of some data to that data gives a
      message whose CRC is 0. This is the check a reader applies to a ROM ID
      or a scratchpad whose last byte is the sensor's CRC. */
  lemma CrcResidue(data: seq<byte>)
    ensures Crc(data + [Crc(data)]) == 0
  {
    CrcAppend(data, Crc(data));
    ZeroRounds(8);
  }

  lemma {:induction false} ZeroRounds(k: nat)
    ensures Rounds(0, k) == 0
  {
    if k > 0 {
      ZeroRounds(k - 1);
    }
  }

  /** A message whose CRC is 0 and that ends in byte `c` carries the CRC of
      its other bytes in `c`: the residue property read backwards. */
  lemma CrcCheckIdentifiesCrc(data: seq<byte>, c: byte)
    requires Crc(data + [c]) == 0
    ensures c == Crc(data)
  {
    CrcAppend(data, c);
    ZeroRounds(8);
    RoundsInjective(Crc(data) ^ c, 0, 8);
  }

  /** `Round` is injective: the bit shifted out decides the top bit. */
  lemma RoundInjective(x: byte, y: byte)
    requires Round(x) == Round(y)
    ensures x == y
  {
  }

  lemma {:induction false} RoundsInjective(x: byte, y: byte, k: nat)
    requires Rounds(x, k) == Rounds(y, k)
    ensures x == y
  {
    if k > 0 {
      RoundInjective(Rounds(x, k - 1), Rounds(y, k - 1));
      RoundsInjective(x, y, k - 1);
    }
  }

  // ---------------------------------------------------------------------
  // The bit-serial reference: the 8-stage shift register of Maxim
  // Application Note 27, fed one message bit at a time, least significant
  // bit of each byte first.

  /** One shift of the register with input bit `bit`. */
  function BitRound(crc: byte, bit: bool): byte
  {
    (crc >> 1) ^ (if (crc & 1 == 1) != bit then POLY else 0)
  }

  /** The register after the bits of `bits` have been shifted in. */
  function SerialCrc(crc: byte, bits: seq<bool>): byte
  {
    if |bits| == 0 then crc else BitRound(SerialCrc(crc, bits[..|bits| - 1]), bits[|bits| - 1])
  }

  /** The message bit stream: every byte, least significant bit first. */
  function BitStream(data: seq<byte>): (bits: seq<bool>)
    ensures |bits| == 8 * |data|
  {
    if |data| == 0 then [] else BitStream(data[..|data| - 1]) + BitsOf(data[|data| - 1])
  }

  lemma {:induction false} SerialCrcAppend(crc: byte, a: seq<bool>, b: seq<bool>)
    ensures SerialCrc(crc, a + b) == SerialCrc(SerialCrc(crc, a), b)
    decreases |b|
  {
    if |b| == 0 {
      assert a + b == a;
    } else {
      assert (a + b)[..|a + b| - 1] == a + b[..|b| - 1];
      SerialCrcAppend(crc, a, b[..|b| - 1]);
    }
  }

  lemma RoundXor(s: byte, x: byte)
    ensures Round(s ^ x) == BitRound(s, x & 1 == 1) ^ (x >> 1)
  {
  }

  /** The register after the first `j` bits of byte `b` have been shifted
      in, least significant first. */
  function ByteSerial(crc: byte, b: byte, j: nat): byte
    requires j <= 8
  {
    if j == 0 then crc else BitRound(ByteSerial(crc, b, j - 1), Bit(b, j - 1))
  }

  /** With `j` bits of `b` already shifted in, the byte-wise rounds equal the
      serial register xor the bits of `b` not yet consumed. */
  lemma {:induction false} RoundsTrackSerial(crc: byte, b: byte, j: nat)
    requires j <= 8
    ensures Rounds(crc ^ b, j) == ByteSerial(crc, b, j) ^ ShiftRight(b, j)
  {
    if j > 0 {
      RoundsTrackSerial(crc, b, j - 1);
      TrackStep(crc, b, j, ByteSerial(crc, b, j - 1), ShiftRight(b, j - 1));
    }
  }

  /** One more round, for register `s` and unconsumed bits `x` after
      `j - 1` bits. */
  lemma TrackStep(crc: byte, b: byte, j: nat, s: byte, x: byte)
    requires 0 < j <= 8
    requires x == ShiftRight(b, j - 1) && s == ByteSerial(crc, b, j - 1)
    requires Rounds(crc ^ b, j - 1) == s ^ x
    ensures Rounds(crc ^ b, j) == ByteSerial(crc, b, j) ^ ShiftRight(b, j)
  {
    RoundXor(s, x);
    NextBit(b, j, s);
  }

  lemma NextBit(b: byte, j: nat, s: byte)
    requires 0 < j <= 8
    ensures BitRound(s, ShiftRight(b, j - 1) & 1 == 1) ^ (ShiftRight(b, j - 1) >> 1)
         == BitRound(s, Bit(b, j - 1)) ^ ShiftRight(b, j)
  {
    ShiftRightBit(b, j - 1);
  }

  /** Shifting the bits of `b` in one at a time is running the register
      over the first `j` entries of `BitsOf(b)`. */
  lemma {:induction false} ByteSerialIsSerialCrc(crc: byte, b: byte, j: nat)
    requires j <= 8
    ensures ByteSerial(crc, b, j) == SerialCrc(crc, BitsOf(b)[..j])
  {
    if j == 0 {
      assert BitsOf(b)[..0] == [];
    } else {
      ByteSerialIsSerialCrc(crc, b, j - 1);
      assert BitsOf(b)[..j][..j - 1] == BitsOf(b)[..j - 1];
    }
  }

  /** The byte-wise step equals shifting the byte's eight bits, least
      significant first, through the serial register. */
  lemma ByteStepIsSerial(crc: byte, b: byte)
    ensures ByteStep(crc, b) == SerialCrc(crc, BitsOf(b))
  {
    RoundsTrackSerial(crc, b, 8);
    ShiftRightValues(b);
    ByteSerialIsSerialCrc(crc, b, 8);
    assert BitsOf(b)[..8] == BitsOf(b);
  }

  /** `w1_crc` computes the Application Note 27 CRC of the message's bit
      stream. */
  lemma {:induction false} CrcIsSerial(data: seq<byte>)
    ensures Crc(data) == SerialCrc(0, BitStream(data))
  {
    if |data| > 0 {
      var front := data[..|data| - 1];
      var last := data[|data| - 1];
      CrcIsSerial(front);
      ByteStepIsSerial(Crc(front), last);
      SerialCrcAppend(0, BitStream(front), BitsOf(last));
    }
  }

  /** The worked example of Application Note 27: ROM ID family 0x02, serial
      number 0x000001B81C, CRC byte 0xA2; the full 8-byte ROM checks to 0. */
  lemma AppNote27Example()
    ensures Crc([0x02, 0x1C, 0xB8, 0x01, 0x00, 0x00, 0x00]) == 0xA2
    ensures Crc([0x02, 0x1C, 0xB8, 0x01, 0x00, 0x00, 0x00, 0xA2]) == 0
  {
    var d0: seq<byte> := [];
    var d1 := d0 + [0x02];
    CrcAppend(d0, 0x02);
    assert ByteStep(0x00, 0x02) == 0xBC;
    var d2 := d1 + [0x1C];
    CrcAppend(d1, 0x1C);
    assert ByteStep(0xBC, 0x1C) == 0xAF;
    var d3 := d2 + [0xB8];
    CrcAppend(d2, 0xB8);
    assert ByteStep(0xAF, 0xB8) == 0x1E;
    var d4 := d3 + [0x01];
    CrcAppend(d3, 0x01);
    assert ByteStep(0x1E, 0x01) == 0xDC;
    var d5 := d4 + [0x00];
    CrcAppend(d4, 0x00);
    assert ByteStep(0xDC, 0x00) == 0xF4;
    var d6 := d5 + [0x00];
    CrcAppend(d5, 0x00);
    assert ByteStep(0xF4, 0x00) == 0x15;
    var d7 := d6 + [0x00];
    CrcAppend(d6, 0x00);
    assert ByteStep(0x15, 0x00) == 0xA2;
    assert d7 == [0x02, 0x1C, 0xB8, 0x01, 0x00, 0x00, 0x00];
    CrcResidue(d7);
    assert d7 + [0xA2] == [0x02, 0x1C, 0xB8, 0x01, 0x00, 0x00, 0x00, 0xA2];
  }
}

=== FILE: onewire.dfy ===
/** The bit-banged 1-Wire bus master of `w1.c`.

    The line is modelled as the trace of what the master does to it: hold it
    low for some microseconds (`Drive`), leave it released for some
    microseconds (`Float`), or read its level (`Sample`). What the device on
    the far end does is an input: the sequence of levels the master reads at
    its successive sample points (`true` = high). Sample points past the end
    of that sequence read high, which is what the pull-up resistor gives when
    no device drives the line. */
module OneWire {
  import opened Bits

  datatype Event = Drive(us: nat) | Float(us: nat) | Sample

  /** The level read at the `k`-th sample point. */
  function LevelAt(line: seq<bool>, k: nat): bool
  {
    if k < |line| then line[k] else true
  }

  /** How long one event takes; a sample is instantaneous. */
  function EventDuration(e: Event): nat
  {
    match e
    case Drive(us) => us
    case Float(us) => us
    case Sample => 0
  }

  /** Total time the trace takes, in microseconds. */
  function Duration(trace: seq<Event>): nat
  {
    if |trace| == 0 then 0
    else Duration(trace[..|trace| - 1]) + EventDuration(trace[|trace| - 1])
  }

  /** The master is holding the line low at the end of the trace (it starts
      released). */
  function MasterLow(trace: seq<Event>): bool
  {
    if |trace| == 0 then false
    else match trace[|trace| - 1] {
      case Drive(_) => true
      case Float(_) => false
      case Sample => MasterLow(trace[..|trace| - 1])
    }
  }

  /** Microseconds since the master last let go of the line (0 while it holds
      the line low). */
  function SinceRelease(trace: seq<Event>): nat
  {
    if |trace| == 0 then 0
    else match trace[|trace| - 1] {
      case Drive(_) => 0
      case Float(us) => SinceRelease(trace[..|trace| - 1]) + us
      case Sample => SinceRelease(trace[..|trace| - 1])
    }
  }

  /** Every sample is taken with the line released by the master, so what is
      read is the device's answer and not the master's own pulse. */
  predicate SamplesReleased(trace: seq<Event>)
  {
    forall i :: 0 <= i < |trace| && trace[i] == Sample ==> !MasterLow(trace[..i])
  }

  /** For each sample point, in order, how long the line had been released
      when it was read. */
  function SampleDelays(trace: seq<Event>): (delays: seq<nat>)
  {
    if |trace| == 0 then []
    else if trace[|trace| - 1] == Sample then
      SampleDelays(trace[..|trace| - 1]) + [SinceRelease(trace[..|trace| - 1])]
    else SampleDelays(trace[..|trace| - 1])
  }

  // ---------------------------------------------------------------------
  // Slots

  /** A write slot: low 6 µs then released 64 µs for a 1; low 60 µs then
      released 10 µs for a 0. */
  function WriteSlot(bit: bool): seq<Event>
  {
    if bit then [Drive(6), Float(64)] else [Drive(60), Float(10)]
  }

  /** A read slot: low 6 µs, released 9 µs, sample, released 55 µs. */
  const READ_SLOT: seq<Event> := [Drive(6), Float(9), Sample, Float(55)]

  /** The reset pulse: low 480 µs, released 70 µs, sample for the presence
      pulse, released 410 µs. */
  const RESET_PULSE: seq<Event> := [Drive(480), Float(70), Sample, Float(410)]

  /** The write slots for `bits`, in order. */
  function WriteSlots(bits: seq<bool>): (trace: seq<Event>)
    ensures |trace| == 2 * |bits|
  {
    if |bits| == 0 then []
    else WriteSlots(bits[..|bits| - 1]) + WriteSlot(bits[|bits| - 1])
  }

  /** `n` read slots in a row. */
  function ReadSlots(n: nat): (trace: seq<Event>)
    ensures |trace| == 4 * n
  {
    if n == 0 then [] else ReadSlots(n - 1) + READ_SLOT
  }

  // ---------------------------------------------------------------------
  // Trace bookkeeping

  /** The trace functions, one event further. */
  lemma Snoc(t: seq<Event>, e: Event)
    ensures Duration(t + [e]) == Duration(t) + EventDuration(e)
    ensures MasterLow(t + [e]) == (if e.Drive? then true else if e.Float? then false else MasterLow(t))
    ensures SinceRelease(t + [e]) ==
      (if e.Drive? then 0 else if e.Float? then SinceRelease(t) + e.us else SinceRelease(t))
    ensures SampleDelays(t + [e]) == SampleDelays(t) + (if e == Sample then [SinceRelease(t)] else [])
    ensures SamplesReleased(t + [e]) <==> SamplesReleased(t) && (e == Sample ==> !MasterLow(t))
  {
    var u := t + [e];
    assert u[..|t|] == t;
    assert forall i :: 0 <= i < |t| ==> u[..i] == t[..i];
  }

  lemma {:induction false} DurationAppend(a: seq<Event>, b: seq<Event>)
    ensures Duration(a + b) == Duration(a) + Duration(b)
    decreases |b|
  {
    if |b| == 0 {
      assert a + b == a;
    } else {
      assert (a + b)[..|a + b| - 1] == a + b[..|b| - 1];
      DurationAppend(a, b[..|b| - 1]);
    }
  }

  /** What happens after a `Drive` does not depend on what came before it. */
  lemma {:induction false} AfterDrive(a: seq<Event>, b: seq<Event>)
    requires |b| > 0 && b[0].Drive?
    ensures MasterLow(a + b) == MasterLow(b)
    ensures SinceRelease(a + b) == SinceRelease(b)
    ensures SampleDelays(a + b) == SampleDelays(a) + SampleDelays(b)
    decreases |b|
  {
    if |b| == 1 {
      assert b == [] + [b[0]];
      Snoc([], b[0]);
      Snoc(a, b[0]);
    } else {
      var front := b[..|b| - 1];
      assert a + b == (a + front) + [b[|b| - 1]];
      assert b == front + [b[|b| - 1]];
      AfterDrive(a, front);
      Snoc(a + front, b[|b| - 1]);
      Snoc(front, b[|b| - 1]);
    }
  }

  lemma {:induction false} SamplesReleasedAppend(a: seq<Event>, b: seq<Event>)
    requires SamplesReleased(a) && SamplesReleased(b)
    requires |b| > 0 && b[0].Drive?
    ensures SamplesReleased(a + b)
  {
    forall i | 0 <= i < |a + b| && (a + b)[i] == Sample
      ensures !MasterLow((a + b)[..i])
    {
      if i < |a| {
        assert (a + b)[..i] == a[..i];
      } else {
        assert (a + b)[..i] == a + b[..i - |a|];
        assert b[i - |a|] == Sample;
        AfterDrive(a, b[..i - |a|]);
        assert b[..i - |a|][..i - |a|] == b[..i - |a|];
      }
    }
  }

  /** The facts every slot of this bus master satisfies. */
  predicate WellFormedSlot(slot: seq<Event>)
  {
    |slot| > 0 && slot[0].Drive? && !MasterLow(slot) && SamplesReleased(slot)
  }

  /** Appending a well-formed slot keeps the line released at the end and at
      every sample, and adds up durations and sample delays. */
  lemma AppendSlot(a: seq<Event>, slot: seq<Event>)
    requires !MasterLow(a) && SamplesReleased(a) && WellFormedSlot(slot)
    ensures !MasterLow(a + slot) && SamplesReleased(a + slot)
    ensures Duration(a + slot) == Duration(a) + Duration(slot)
    ensures SampleDelays(a + slot) == SampleDelays(a) + SampleDelays(slot)
  {
    AfterDrive(a, slot);
    SamplesReleasedAppend(a, slot);
    DurationAppend(a, slot);
  }

  /** Every write slot lasts 70 µs and ends with the line released. */
  lemma WriteSlotFacts(bit: bool)
    ensures WellFormedSlot(WriteSlot(bit))
    ensures Duration(WriteSlot(bit)) == 70
    ensures SampleDelays(WriteSlot(bit)) == []
  {
    var s := WriteSlot(bit);
    var e0 := s[0];
    assert s == [] + [e0] + [s[1]];
    Snoc([], e0);
    Snoc([e0], s[1]);
    assert [] + [e0] == [e0];
  }

  /** Every read slot lasts 70 µs, samples 9 µs after releasing the line,
      and ends with the line released. */
  lemma ReadSlotFacts()
    ensures WellFormedSlot(READ_SLOT)
    ensures Duration(READ_SLOT) == 70
    ensures SampleDelays(READ_SLOT) == [9]
  {
    var s0: seq<Event> := [];
    var s1 := s0 + [Drive(6)];
    var s2 := s1 + [Float(9)];
    var s3 := s2 + [Sample];
    var s4 := s3 + [Float(55)];
    Snoc(s0, Drive(6));
    Snoc(s1, Float(9));
    Snoc(s2, Sample);
    Snoc(s3, Float(55));
    assert s4 == READ_SLOT;
  }

  lemma {:induction false} WriteSlotsFacts(bits: seq<bool>)
    ensures Duration(WriteSlots(bits)) == 70 * |bits|
    ensures !MasterLow(WriteSlots(bits)) && SamplesReleased(WriteSlots(bits))
    ensures SampleDelays(WriteSlots(bits)) == []
  {
    if |bits| > 0 {
      var front := bits[..|bits| - 1];
      WriteSlotsFacts(front);
      WriteSlotFacts(bits[|bits| - 1]);
      AppendSlot(WriteSlots(front), WriteSlot(bits[|bits| - 1]));
    }
  }

  /** Slot `i` of the write trace carries bit `i`. */
  lemma {:induction false} WriteSlotsAt(bits: seq<bool>, i: nat)
    requires i < |bits|
    ensures WriteSlots(bits)[2 * i..2 * i + 2] == WriteSlot(bits[i])
  {
    var front := bits[..|bits| - 1];
    if i < |front| {
      WriteSlotsAt(front, i);
      assert WriteSlots(bits)[2 * i..2 * i + 2] == WriteSlots(front)[2 * i..2 * i + 2];
    }
  }

  lemma {:induction false} ReadSlotsFacts(n: nat)
    ensures Duration(ReadSlots(n)) == 70 * n
    ensures !MasterLow(ReadSlots(n)) && SamplesReleased(ReadSlots(n))
    ensures SampleDelays(ReadSlots(n)) == seq(n, _ => 9)
  {
    if n > 0 {
      ReadSlotsFacts(n - 1);
      ReadSlotFacts();
      AppendSlot(ReadSlots(n - 1), READ_SLOT);
    }
  }

  // ---------------------------------------------------------------------
  // w1_write

  /** `w1_write(val)`: eight write slots, bit 0 of `val` first. */
  method Write(val: byte) returns (trace: seq<Event>)
    ensures trace == WriteSlots(BitsOf(val))
    ensures |trace| == 16
    ensures forall i :: 0 <= i < 8 ==> trace[2 * i..2 * i + 2] == WriteSlot(Bit(val, i))
    ensures Duration(trace) == 8 * 70
    ensures !MasterLow(trace) && SamplesReleased(trace) && SampleDelays(trace) == []
  {
    trace := [];
    var v := val;
    var i := 0;
    while i < 8
      invariant 0 <= i <= 8
      invariant v == ShiftRight(val, i)
      invariant trace == WriteSlots(BitsOf(val)[..i])
    {
      var slot: seq<Event>;
      if v & 1 == 1 {
        slot := [Drive(6), Float(64)];
      } else {
        slot := [Drive(60), Float(10)];
      }
      WriteNext(val, i, v, slot);
      trace := trace + slot;
      v := v >> 1;
      i := i + 1;
    }
    WriteFacts(val);
  }

  /** One iteration of `w1_write`: the slot for the low bit of what is left
      of `val` is the slot for bit `i`. */
  lemma WriteNext(val: byte, i: nat, v: byte, slot: seq<Event>)
    requires i < 8 && v == ShiftRight(val, i)
    requires slot == if v & 1 == 1 then [Drive(6), Float(64)] else [Drive(60), Float(10)]
    ensures WriteSlots(BitsOf(val)[..i]) + slot == WriteSlots(BitsOf(val)[..i + 1])
    ensures v >> 1 == ShiftRight(val, i + 1)
  {
    ShiftRightBit(val, i);
    assert BitsOf(val)[..i + 1][..i] == BitsOf(val)[..i];
  }

  lemma WriteFacts(val: byte)
    ensures WriteSlots(BitsOf(val)[..8]) == WriteSlots(BitsOf(val))
    ensures |WriteSlots(BitsOf(val))| == 16
    ensures forall i :: 0 <= i < 8 ==> WriteSlots(BitsOf(val))[2 * i..2 * i + 2] == WriteSlot(Bit(val, i))
    ensures Duration(WriteSlots(BitsOf(val))) == 8 * 70
    ensures !MasterLow(WriteSlots(BitsOf(val))) && SamplesReleased(WriteSlots(BitsOf(val)))
    ensures SampleDelays(WriteSlots(BitsOf(val))) == []
  {
    assert BitsOf(val)[..8] == BitsOf(val);
    WriteSlotsFacts(BitsOf(val));
    forall i | 0 <= i < 8
      ensures WriteSlots(BitsOf(val))[2 * i..2 * i + 2] == WriteSlot(Bit(val, i))
    {
      WriteSlotsAt(BitsOf(val), i);
    }
  }

  /** The bit a device receives from a write slot: it samples between 15 µs
      and 60 µs after the falling edge, so a pulse shorter than 15 µs reads
      as 1 and one of 60 µs or more reads as 0. */
  function SlotBit(e: Event): bool
  {
    e.Drive? && e.us < 15
  }

  /** The bits a device receives from a trace of write slots: one per slot,
      read from the slot's opening pulse. */
  function DeviceReceives(trace: seq<Event>): (bits: seq<bool>)
    ensures |bits| == |trace| / 2
    ensures forall i :: 0 <= i < |bits| ==> bits[i] == SlotBit(trace[2 * i])
  {
    if |trace| < 2 then [] else [SlotBit(trace[0])] + DeviceReceives(trace[2..])
  }

  /** Write slots are decoded by the device into the bits that produced them. */
  lemma DeviceReceivesWriteSlots(bits: seq<bool>)
    ensures DeviceReceives(WriteSlots(bits)) == bits
  {
    var got := DeviceReceives(WriteSlots(bits));
    forall i | 0 <= i < |bits|
      ensures got[i] == bits[i]
    {
      WriteSlotsAt(bits, i);
      assert WriteSlots(bits)[2 * i] == WriteSlot(bits[i])[0];
    }
  }

  /** A device reassembling the bits it receives, least significant first,
      obtains the byte that was written. */
  lemma WriteRoundTrip(val: byte)
    ensures DeviceReceives(WriteSlots(BitsOf(val))) == BitsOf(val)
    ensures ByteOfBits(DeviceReceives(WriteSlots(BitsOf(val)))) == val
  {
    DeviceReceivesWriteSlots(BitsOf(val));
    ByteOfBitsOf(val);
  }

  // ---------------------------------------------------------------------
  // w1_read_byte and w1_read

  /** The eight levels read from sample point `from` on. */
  function LevelsFrom(line: seq<bool>, from: nat): (levels: seq<bool>)
    ensures |levels| == 8
    ensures forall k :: 0 <= k < 8 ==> levels[k] == LevelAt(line, from + k)
  {
    seq(8, k requires 0 <= k < 8 => LevelAt(line, from + k))
  }

  /** The samples left for later operations once `n` have been used. */
  function Drop(line: seq<bool>, n: nat): (rest: seq<bool>)
    ensures forall k: nat :: LevelAt(rest, k) == LevelAt(line, n + k)
  {
    if n <= |line| then line[n..] else []
  }

  /** `w1_read_byte()`: eight read slots; the level read in slot `i` becomes
      bit `i` of the result. */
  method ReadByte(line: seq<bool>) returns (val: byte, trace: seq<Event>)
    ensures forall i :: 0 <= i < 8 ==> Bit(val, i) == LevelAt(line, i)
    ensures val == ByteOfBits(LevelsFrom(line, 0))
    ensures trace == ReadSlots(8)
    ensures Duration(trace) == 8 * 70
    ensures !MasterLow(trace) && SamplesReleased(trace)
    ensures SampleDelays(trace) == [9, 9, 9, 9, 9, 9, 9, 9]
  {
    val := 0;
    trace := [];
    var i := 0;
    while i < 8
      invariant 0 <= i <= 8
      invariant forall k :: 0 <= k < 8 ==> Bit(val, k) == (k < i && LevelAt(line, k))
      invariant trace == ReadSlots(i)
    {
      val := SetSampledBit(val, i, line);
      trace := trace + READ_SLOT;
      i := i + 1;
    }
    BitsDetermineByte(val, ByteOfBits(LevelsFrom(line, 0)));
    ReadSlotsFacts(8);
  }

  /** One iteration of the `w1_read_byte` loop: or the sampled level into
      bit `i`. */
  function SetSampledBit(val: byte, i: nat, line: seq<bool>): (next: byte)
    requires i < 8
    requires forall k :: 0 <= k < 8 ==> Bit(val, k) == (k < i && LevelAt(line, k))
    ensures forall k :: 0 <= k < 8 ==> Bit(next, k) == (k < i + 1 && LevelAt(line, k))
  {
    var next := val | (if LevelAt(line, i) then Mask(i) else 0);
    SetSampledBitFacts(val, i, line);
    next
  }

  lemma SetSampledBitFacts(val: byte, i: nat, line: seq<bool>)
    requires i < 8
    requires forall k :: 0 <= k < 8 ==> Bit(val, k) == (k < i && LevelAt(line, k))
    ensures forall k :: 0 <= k < 8 ==>
      Bit(val | (if LevelAt(line, i) then Mask(i) else 0), k) == (k < i + 1 && LevelAt(line, k))
  {
    var next := val | (if LevelAt(line, i) then Mask(i) else 0);
    forall k | 0 <= k < 8
      ensures Bit(next, k) == (k < i + 1 && LevelAt(line, k))
    {
      if LevelAt(line, i) {
        OrMaskBit(val, i, k);
      } else {
        assert next == val;
      }
    }
  }

  /** If the device presents the bits of `b` least significant first, the
      byte read is `b`: reading uses the bit order writing uses. */
  lemma ReadWriteOrder(line: seq<bool>, b: byte)
    requires |line| >= 8 && line[..8] == BitsOf(b)
    ensures ByteOfBits(LevelsFrom(line, 0)) == b
  {
    assert LevelsFrom(line, 0) == BitsOf(b);
    ByteOfBitsOf(b);
  }

  /** The first `n` bytes read from `line`, eight levels each. */
  function ReadBytes(line: seq<bool>, n: nat): (bytes: seq<byte>)
    ensures |bytes| == n
    ensures forall j :: 0 <= j < n ==> bytes[j] == ByteOfBits(LevelsFrom(line, 8 * j))
  {
    if n == 0 then [] else ReadBytes(line, n - 1) + [ByteOfBits(LevelsFrom(line, 8 * (n - 1)))]
  }

  /** `w1_read(buf, len)`: `len` successive `w1_read_byte` results, in order. */
  method Read(len: nat, line: seq<bool>) returns (buf: seq<byte>, trace: seq<Event>)
    ensures |buf| == len
    ensures forall j :: 0 <= j < len ==> buf[j] == ByteOfBits(LevelsFrom(line, 8 * j))
    ensures trace == ReadSlots(8 * len)
    ensures Duration(trace) == 70 * (8 * len)
    ensures !MasterLow(trace) && SamplesReleased(trace)
  {
    buf := [];
    trace := [];
    var i := 0;
    while i < len
      invariant 0 <= i <= len
      invariant buf == ReadBytes(line, i)
      invariant trace == ReadSlots(8 * i)
    {
      var b, t := ReadByte(Drop(line, 8 * i));
      ReadNext(line, i, b, t);
      buf := buf + [b];
      trace := trace + t;
      i := i + 1;
    }
    ReadSlotsFacts(8 * len);
  }

  /** One iteration of `w1_read`: the byte read from the levels after the
      first `8i` extends the bytes and the slots. */
  lemma ReadNext(line: seq<bool>, i: nat, b: byte, t: seq<Event>)
    requires b == ByteOfBits(LevelsFrom(Drop(line, 8 * i), 0)) && t == ReadSlots(8)
    ensures ReadBytes(line, i) + [b] == ReadBytes(line, i + 1)
    ensures ReadSlots(8 * i) + t == ReadSlots(8 * (i + 1))
  {
    DropLevels(line, 8 * i);
    ReadSlotsAppend(8 * i, 8);
  }

  lemma DropLevels(line: seq<bool>, n: nat)
    ensures LevelsFrom(Drop(line, n), 0) == LevelsFrom(line, n)
  {
  }

  lemma {:induction false} ReadSlotsAppend(m: nat, n: nat)
    ensures ReadSlots(m + n) == ReadSlots(m) + ReadSlots(n)
    decreases n
  {
    if n > 0 {
      ReadSlotsAppend(m, n - 1);
    }
  }

  // ---------------------------------------------------------------------
  // w1_reset

  /** The outcome of a bus operation: the value obtained and what was done
      to the line. */
  datatype Outcome<T> = Outcome(value: T, trace: seq<Event>)

  /** `w1_reset()`: 480 µs low, 70 µs released, one sample, 410 µs released
      (960 µs in all, the line released at the sample and at the end); a
      device is present iff the line reads low at that sample. */
  function Reset(line: seq<bool>): (r: Outcome<bool>)
    ensures r.value <==> !LevelAt(line, 0)
    ensures Duration(r.trace) == 960 && SampleDelays(r.trace) == [70]
    ensures !MasterLow(r.trace) && SamplesReleased(r.trace)
  {
    ResetTiming();
    Outcome(!LevelAt(line, 0), RESET_PULSE)
  }

  /** A DS18B20 answers a reset by waiting 15 to 60 µs after the line is
      released and then holding it low for 60 to 240 µs. Whatever its timing
      within those bounds, the reset's sample point falls inside that
      presence pulse. */
  lemma ResetSamplesPresencePulse(wait: nat, width: nat)
    requires 15 <= wait <= 60 && 60 <= width <= 240
    ensures wait <= SampleDelays(Reset([]).trace)[0] < wait + width
  {
  }

  /** A read slot samples 15 µs after its falling edge, the earliest point
      at which a device sending a 0 may let go of the line. */
  lemma ReadSlotSamplePoint()
    ensures SampleDelays(READ_SLOT) == [9] && READ_SLOT[0] == Drive(6)
    ensures EventDuration(READ_SLOT[0]) + SampleDelays(READ_SLOT)[0] == 15
  {
    ReadSlotFacts();
  }

  lemma ResetTiming()
    ensures Duration(RESET_PULSE) == 480 + 70 + 410
    ensures SampleDelays(RESET_PULSE) == [70]
    ensures !MasterLow(RESET_PULSE) && SamplesReleased(RESET_PULSE)
  {
    var s0: seq<Event> := [];
    var s1 := s0 + [Drive(480)];
    var s2 := s1 + [Float(70)];
    var s3 := s2 + [Sample];
    var s4 := s3 + [Float(410)];
    Snoc(s0, Drive(480));
    Snoc(s1, Float(70));
    Snoc(s2, Sample);
    Snoc(s3, Float(410));
    assert s4 == RESET_PULSE;
  }
}

=== FILE: serial.dfy ===
/** The USB serial number string: the 16 hexadecimal characters of the
    sensor's 64-bit ROM ID, or 16 'F's when no sensor answers the reset. */
module Serial {
  import opened Bits
  import opened OneWire
  import opened Crc8

  /** The serial string before any sensor is found. */
  const UNKNOWN_SERIAL: seq<char> := "FFFFFFFFFFFFFFFF"

  /** The 1-Wire READ ROM command. */
  const READ_ROM: byte := 0x33

  /** The hexadecimal digits, in value order. */
  const HEX_DIGITS: seq<char> := "0123456789ABCDEF"

  /** `hexdigit(i)`: the upper-case hexadecimal digit of a nibble. */
  function HexDigit(i: nat): (c: char)
    requires i < 16
    ensures i < 10 ==> '0' <= c <= '9'
    ensures 10 <= i ==> 'A' <= c <= 'F'
    ensures c == HEX_DIGITS[i]
  {
    if i < 10 then ('0' as int + i) as char else ('A' as int - 10 + i) as char
  }

  /** The value of a hexadecimal digit: the reference `HexDigit` inverts. */
  function HexValue(c: char): (v: nat)
    requires c in HEX_DIGITS
    ensures v < 16 && HEX_DIGITS[v] == c
  {
    if '0' <= c <= '9' then c as int - '0' as int else c as int - 'A' as int + 10
  }

  lemma DigitRoundTrip(i: nat)
    requires i < 16
    ensures HexValue(HexDigit(i)) == i
  {
  }

  /** The high and low nibble of a byte. */
  function High(b: byte): (n: nat)
    ensures n < 16
  {
    (b >> 4) as nat
  }

  function Low(b: byte): (n: nat)
    ensures n < 16
  {
    (b & 0xF) as nat
  }

  lemma HighBack(b: byte)
    ensures High(b) as bv8 == b >> 4
  {
  }

  lemma LowBack(b: byte)
    ensures Low(b) as bv8 == b & 0xF
  {
  }

  /** The byte with high nibble `hi` and low nibble `lo`. */
  function ByteOfNibbles(hi: nat, lo: nat): byte
    requires hi < 16 && lo < 16
  {
    (hi as bv8 << 4) | lo as bv8
  }

  /** A byte is determined by its two nibbles. */
  lemma NibblesDetermineByte(b: byte)
    ensures ByteOfNibbles(High(b), Low(b)) == b
  {
    HighBack(b);
    LowBack(b);
    assert ((b >> 4) << 4) | (b & 0xF) == b;
  }

  /** The loop of `set_serial`, over any number of bytes: each byte becomes
      its high nibble's digit followed by its low nibble's digit. */
  function HexString(bytes: seq<byte>): (s: seq<char>)
    ensures |s| == 2 * |bytes|
  {
    if |bytes| == 0 then [] else [HexDigit(High(bytes[0])), HexDigit(Low(bytes[0]))] + HexString(bytes[1..])
  }

  /** Characters `2i` and `2i + 1` are the digits of byte `i`. */
  lemma {:induction false} HexStringAt(bytes: seq<byte>, i: nat)
    requires i < |bytes|
    ensures HexString(bytes)[2 * i] == HexDigit(High(bytes[i]))
    ensures HexString(bytes)[2 * i + 1] == HexDigit(Low(bytes[i]))
  {
    if i > 0 {
      HexStringAt(bytes[1..], i - 1);
    }
  }

  /** Every character is a hexadecimal digit. */
  predicate AllHex(s: seq<char>)
  {
    forall k :: 0 <= k < |s| ==> s[k] in HEX_DIGITS
  }

  /** Reading a hexadecimal string back as bytes, two digits per byte. */
  function ParseHex(s: seq<char>): (bytes: seq<byte>)
    requires AllHex(s) && |s| % 2 == 0
    ensures |bytes| == |s| / 2
  {
    if |s| == 0 then [] else [ByteOfNibbles(HexValue(s[0]), HexValue(s[1]))] + ParseHex(s[2..])
  }

  /** The hexadecimal string encodes the bytes without loss. */
  lemma {:induction false} HexRoundTrip(bytes: seq<byte>)
    ensures AllHex(HexString(bytes))
    ensures ParseHex(HexString(bytes)) == bytes
  {
    if |bytes| > 0 {
      HexRoundTrip(bytes[1..]);
      var s := HexString(bytes);
      assert s[2..] == HexString(bytes[1..]);
      DigitRoundTrip(High(bytes[0]));
      DigitRoundTrip(Low(bytes[0]));
      NibblesDetermineByte(bytes[0]);
    }
  }

  /** The serial string for the 8-byte ROM ID. */
  function SerialOf(rom: seq<byte>): (s: seq<char>)
    requires |rom| == 8
    ensures |s| == 16
    ensures forall i :: 0 <= i < 8 ==> s[2 * i] == HexDigit(High(rom[i])) && s[2 * i + 1] == HexDigit(Low(rom[i]))
  {
    var s := HexString(rom);
    assert forall i :: 0 <= i < 8 ==> s[2 * i] == HexDigit(High(rom[i])) && s[2 * i + 1] == HexDigit(Low(rom[i])) by {
      forall i | 0 <= i < 8 {
        HexStringAt(rom, i);
      }
    }
    s
  }

  /** The serial string determines the ROM ID. */
  lemma SerialRoundTrip(rom: seq<byte>)
    requires |rom| == 8
    ensures AllHex(SerialOf(rom)) && ParseHex(SerialOf(rom)) == rom
  {
    HexRoundTrip(rom);
  }

  /** The eight ROM bytes `w1_read(buf, 8)` collects after the reset's sample
      and the READ ROM command. */
  function RomFrom(line: seq<bool>): (rom: seq<byte>)
    ensures |rom| == 8
    ensures forall j :: 0 <= j < 8 ==> rom[j] == ByteOfBits(LevelsFrom(line, 1 + 8 * j))
  {
    seq(8, j requires 0 <= j < 8 => ByteOfBits(LevelsFrom(line, 1 + 8 * j)))
  }

  /** `set_serial()` applied to the current string `serial`: without a
      presence pulse the string is left as it is; otherwise READ ROM is sent,
      eight bytes are read and the string is rewritten from them, two
      digits per byte, high nibble first. */
  function SetSerial(serial: seq<char>, line: seq<bool>): (r: Outcome<seq<char>>)
    ensures !Reset(line).value ==> r.value == serial
    ensures !Reset(line).value ==>
      Duration(r.trace) == 960 && SampleDelays(r.trace) == [70] &&
      !MasterLow(r.trace) && SamplesReleased(r.trace)
    ensures Reset(line).value ==> |r.value| == 16
    ensures Reset(line).value ==> forall i :: 0 <= i < 8 ==>
      r.value[2 * i] == HexDigit(High(ByteOfBits(LevelsFrom(line, 1 + 8 * i)))) &&
      r.value[2 * i + 1] == HexDigit(Low(ByteOfBits(LevelsFrom(line, 1 + 8 * i))))
    ensures Reset(line).value ==>
      |r.trace| == 4 + 16 + 4 * 64 && DeviceReceives(r.trace[4..20]) == BitsOf(READ_ROM)
    ensures Reset(line).value ==>
      Duration(r.trace) == 960 + 8 * 70 + 64 * 70 &&
      SampleDelays(r.trace) == [70] + seq(64, _ => 9) &&
      !MasterLow(r.trace) && SamplesReleased(r.trace)
  {
    if !Reset(line).value then Outcome(serial, RESET_PULSE)
    else
      var t := RESET_PULSE + WriteSlots(BitsOf(READ_ROM)) + ReadSlots(8 * 8);
      ReadRomTrace();
      Outcome(SerialOf(RomFrom(line)), t)
  }

  /** The bus traffic of a successful `set_serial()`: the reset pulse, the
      eight write slots of READ ROM, and 64 read slots. */
  lemma ReadRomTrace()
    ensures var t := RESET_PULSE + WriteSlots(BitsOf(READ_ROM)) + ReadSlots(8 * 8);
      |t| == 4 + 16 + 4 * 64 && DeviceReceives(t[4..20]) == BitsOf(READ_ROM) &&
      Duration(t) == 960 + 8 * 70 + 64 * 70 &&
      SampleDelays(t) == [70] + seq(64, _ => 9) &&
      !MasterLow(t) && SamplesReleased(t)
  {
    var w := WriteSlots(BitsOf(READ_ROM));
    var rd := ReadSlots(8 * 8);
    ResetTiming();
    WriteFacts(READ_ROM);
    WriteRoundTrip(READ_ROM);
    assert w[0..2] == WriteSlot(Bit(READ_ROM, 0));
    AppendSlot(RESET_PULSE, w);
    ReadSlotsFacts(8 * 8);
    ReadSlotsAppend(1, 63);
    assert ReadSlots(1) == READ_SLOT;
    AppendSlot(RESET_PULSE + w, rd);
    var t := RESET_PULSE + w + rd;
    assert t[4..20] == w;
    assert [70] + [] == [70];
  }

  /** With no sensor on the bus, the serial stays all 'F'. */
  lemma NoSensorKeepsDefault(line: seq<bool>)
    requires LevelAt(line, 0)
    ensures SetSerial(UNKNOWN_SERIAL, line).value == UNKNOWN_SERIAL
  {
  }

  /** The levels a sensor with ROM ID `rom` presents: the presence pulse,
      then the ROM bytes least significant bit first. */
  function RomResponse(rom: seq<byte>): (line: seq<bool>)
    requires |rom| == 8
    ensures |line| == 65
  {
    [false] + BitStream(rom)
  }

  /** Byte `j` of the data occupies bits `8j .. 8j + 8` of its bit stream. */
  lemma {:induction false} BitStreamAt(data: seq<byte>, j: nat)
    requires j < |data|
    ensures BitStream(data)[8 * j..8 * j + 8] == BitsOf(data[j])
  {
    var front := data[..|data| - 1];
    if j < |data| - 1 {
      BitStreamAt(front, j);
      assert BitStream(data)[..8 * |front|] == BitStream(front);
    }
  }

  lemma RomResponseByte(rom: seq<byte>, j: nat)
    requires |rom| == 8 && j < 8
    ensures LevelsFrom(RomResponse(rom), 1 + 8 * j) == BitsOf(rom[j])
  {
    BitStreamAt(rom, j);
    var line := RomResponse(rom);
    assert line[1 + 8 * j..9 + 8 * j] == BitStream(rom)[8 * j..8 * j + 8];
  }

  /** End to end: a sensor that answers the reset and sends its ROM ID sets
      the serial string to that ID in hexadecimal. */
  lemma SetSerialReadsRom(serial: seq<char>, rom: seq<byte>)
    requires |rom| == 8
    ensures SetSerial(serial, RomResponse(rom)).value == SerialOf(rom)
  {
    var line := RomResponse(rom);
    forall j | 0 <= j < 8
      ensures RomFrom(line)[j] == rom[j]
    {
      RomResponseByte(rom, j);
      ByteOfBitsOf(rom[j]);
    }
    assert RomFrom(line) == rom;
  }
}

=== FILE: temper.dfy ===
/** The TEMPer emulation of `main.c`: the USB output reports the host sends,
    the main loop's delivery of the interrupt-endpoint reply, and the
    18-state 1-Wire transaction that reads the DS18B20 one bus operation per
    loop iteration.

    `usbPoll`, `usbInterruptIsReady3` and `usbSetInterrupt3` are not part of
    this model: the endpoint's readiness is an input of the loop step and the
    packet handed to it is an output. The sensor's side of the bus is the
    sequence of line levels the step samples. */
module Temper {
  import opened Bits
  import opened OneWire

  datatype Option<T> = None | Some(value: T)

  /** The Caps Lock LED in the keyboard LED report: the value 2, bit 1. */
  const CAPS_LOCK: byte := 0x02

  /** DS18B20 function commands. */
  const SKIP_ROM: byte := 0xCC
  const CONVERT_T: byte := 0x44
  const READ_SCRATCHPAD: byte := 0xBE

  /** The last state of the transaction; states run from 0 (idle) to 17. */
  const LAST_PHASE: nat := 17

  /** "TEMPerF1", the reply to the second initialisation query. */
  const TEMPER_F1: seq<byte> := [0x54, 0x45, 0x4D, 0x50, 0x65, 0x72, 0x46, 0x31]

  /** 'T', '.' and '2'. */
  const CHAR_T: byte := 0x54
  const CHAR_DOT: byte := 0x2E
  const CHAR_TWO: byte := 0x32

  /** The firmware's globals and the main loop's scratch buffer:
      `temp_report`, `temp_state`, `have_temp_int`, `ledstate`, the LED pin
      (PB1) and `buf`, which lives across loop iterations. */
  datatype Emulator = Emulator(
    report: seq<byte>,
    phase: nat,
    pending: bool,
    ledstate: byte,
    led: bool,
    scratch: seq<byte>)

  predicate Valid(s: Emulator)
  {
    |s.report| == 8 && s.phase <= LAST_PHASE && |s.scratch| == 9
  }

  /** The state at power-up: zeroed statics, `ledstate` 0xFF, LED off.
      (The scratch buffer is indeterminate in C; any contents would do, as
      state 17 only reads bytes that states 8 and 9 wrote.) */
  const START: Emulator := Emulator([0, 0, 0, 0, 0, 0, 0, 0], 0, false, 0xFF, false, [0, 0, 0, 0, 0, 0, 0, 0, 0])

  // ---------------------------------------------------------------------
  // usbFunctionWrite

  /** What an output report asks for. */
  datatype Command = LedReport(leds: byte) | TemperatureQuery | InitQuery1 | InitQuery2 | Ignored

  /** The three vendor commands, as the 8 bytes the host sends. */
  const TEMPERATURE_QUERY: seq<byte> := [0x01, 0x80, 0x33, 0x01, 0x00, 0x00, 0x00, 0x00]
  const INIT_QUERY_1: seq<byte> := [0x01, 0x82, 0x77, 0x01, 0x00, 0x00, 0x00, 0x00]
  const INIT_QUERY_2: seq<byte> := [0x01, 0x86, 0xFF, 0x01, 0x00, 0x00, 0x00, 0x00]

  /** The decoding steps of `usbFunctionWrite`: a 1-byte report sets the
      LEDs; an 8-byte one must start with 1 and end in four zero bytes, and
      bytes 1..3 select the command. */
  function Decode(data: seq<byte>): (c: Command)
    ensures c.LedReport? <==> |data| == 1
    ensures c.LedReport? ==> c.leds == data[0]
    ensures c == TemperatureQuery <==> data == TEMPERATURE_QUERY
    ensures c == InitQuery1 <==> data == INIT_QUERY_1
    ensures c == InitQuery2 <==> data == INIT_QUERY_2
  {
    if |data| == 1 then LedReport(data[0])
    else if |data| != 8 then Ignored
    else if data[0] != 1 then Ignored
    else if data[4] | data[5] | data[6] | data[7] != 0 then Ignored
    else if data[1] == 0x80 && data[2] == 0x33 && data[3] == 1 then TemperatureQuery
    else if data[1] == 0x82 && data[2] == 0x77 && data[3] == 1 then InitQuery1
    else if data[1] == 0x86 && data[2] == 0xFF && data[3] == 1 then InitQuery2
    else Ignored
  }

  /** The return value of `usbFunctionWrite` and the state it leaves. */
  datatype Accepted = Accepted(consumed: nat, state: Emulator)

  /** `usbFunctionWrite(data, len)`. */
  function WriteReport(s: Emulator, data: seq<byte>): (r: Accepted)
    requires Valid(s)
    ensures Valid(r.state)
    ensures r.consumed == if |data| == 1 then 1 else if |data| == 8 then 8 else 0
    ensures |data| == 1 ==>
      r.state == s.(ledstate := data[0], led := data[0] == s.ledstate || data[0] & CAPS_LOCK != 0)
    ensures data == TEMPERATURE_QUERY ==>
      r.state == s.(report := [0x80, 0x02, 0, 0, 0, 0, 0, 0], phase := 1)
    ensures data == INIT_QUERY_1 ==>
      r.state == s.(report := [0x82, 0x01, 0x00] + s.report[3..], pending := true)
    ensures data == INIT_QUERY_2 ==>
      r.state == s.(report := TEMPER_F1, pending := true)
    ensures |data| != 1 && data != TEMPERATURE_QUERY && data != INIT_QUERY_1 && data != INIT_QUERY_2 ==>
      r.state == s
  {
    var consumed := if |data| == 1 then 1 else if |data| == 8 then 8 else 0;
    match Decode(data)
    case LedReport(v) =>
      // The LED is switched on first, and off again only for a new value
      // without CAPS_LOCK.
      var s1 := s.(led := true);
      var s2 := if v != s.ledstate then s1.(ledstate := v, led := v & CAPS_LOCK != 0) else s1;
      Accepted(consumed, s2)
    case TemperatureQuery =>
      Accepted(consumed, s.(report := [0x80, 0x02, 0, 0, 0, 0, 0, 0], phase := 1))
    case InitQuery1 =>
      Accepted(consumed, s.(report := s.report[0 := 0x82][1 := 0x01][2 := 0x00], pending := true))
    case InitQuery2 =>
      Accepted(consumed, s.(report := TEMPER_F1, pending := true))
    case Ignored =>
      Accepted(consumed, s)
  }

  /** `hadUsbReset()`: abandon the transaction and the pending reply. */
  function UsbReset(s: Emulator): (r: Emulator)
    requires Valid(s)
    ensures Valid(r) && r.phase == 0 && !r.pending
    ensures r.report == s.report && r.ledstate == s.ledstate && r.led == s.led && r.scratch == s.scratch
  {
    s.(phase := 0, pending := false)
  }

  // ---------------------------------------------------------------------
  // The main loop: delivery, then one transaction step

  /** What one delivery attempt hands to the endpoint, and the state after. */
  datatype Delivery = Delivery(packet: Option<seq<byte>>, state: Emulator)

  /** Lines 402-411 of `main`: send the report if one is pending and the
      endpoint is free. A report starting with 'T' is the first half of the
      reply to the second initialisation query: its first two bytes become
      ".2" and it stays pending, to be sent again. */
  function Deliver(s: Emulator, ready: bool): (r: Delivery)
    requires Valid(s)
    ensures Valid(r.state)
    ensures r.packet.Some? <==> s.pending && ready
    ensures r.packet.Some? ==> r.packet.value == s.report
    ensures r.state.pending <==> s.pending && (!ready || s.report[0] == CHAR_T)
    ensures r.packet.Some? && s.report[0] == CHAR_T ==> r.state.report == [CHAR_DOT, CHAR_TWO] + s.report[2..]
    ensures !(r.packet.Some? && s.report[0] == CHAR_T) ==> r.state.report == s.report
    ensures r.state.phase == s.phase && r.state.scratch == s.scratch
    ensures r.state.ledstate == s.ledstate && r.state.led == s.led
  {
    if s.pending && ready then
      if s.report[0] == CHAR_T then
        Delivery(Some(s.report), s.(report := s.report[0 := CHAR_DOT][1 := CHAR_TWO]))
      else
        Delivery(Some(s.report), s.(pending := false))
    else
      Delivery(None, s)
  }

  /** The state after one transaction step and what it did on the bus. */
  datatype Step = Step(state: Emulator, trace: seq<Event>)

  /** The byte a `w1_read_byte()` call reads from the levels `line`. */
  function SampledByte(line: seq<bool>): byte
  {
    ByteOfBits(LevelsFrom(line, 0))
  }

  /** The two report bytes that carry a reading: the DS18B20's 16-bit value
      (1/16 °C, in scratchpad bytes 0 and 1) shifted left 4, high byte
      first, as the TEMPer's sensor reports in 1/256 °C. */
  function EncodeReading(lsb: byte, msb: byte): (bytes: seq<byte>)
    ensures |bytes| == 2
  {
    [(msb << 4) | (lsb >> 4), lsb << 4]
  }

  /** A failed reset: error bytes in report positions 2 and 3, the report
      pending, the transaction over. */
  function Fail(s: Emulator, code: byte): (r: Emulator)
    requires Valid(s)
    ensures Valid(r)
  {
    s.(report := s.report[2 := 0xFF][3 := code], pending := true, phase := 0)
  }

  /** Lines 413-454 of `main`: one step of the temperature transaction;
      `line` is what the sensor presents to this step's samples. */
  function TxStep(s: Emulator, line: seq<bool>): (r: Step)
    requires Valid(s)
    ensures Valid(r.state)
    ensures r.state.phase == 0 || r.state.phase == s.phase + 1 || (s.phase == 4 && r.state.phase == 4)
    ensures s.phase == 0 ==> r.state == s && r.trace == []
    ensures s.phase == 4 ==> (r.state.phase == 5 <==> SampledByte(line) == 0xFF)
    ensures s.phase == 4 && SampledByte(line) != 0xFF ==> r.state == s
    ensures s.phase == 2 || s.phase == 3 || s.phase == 6 || s.phase == 7 || 8 <= s.phase <= 16 ==>
      r.state.phase == s.phase + 1
    ensures 8 <= s.phase <= 16 ==> r.state.scratch == s.scratch[s.phase - 8 := SampledByte(line)]
    ensures (s.phase == 1 || s.phase == 5) ==> (r.state.phase != 0 <==> Reset(line).value)
    ensures r.state.ledstate == s.ledstate && r.state.led == s.led
    ensures s.pending ==> r.state.pending
    ensures s.phase != 17 && ((s.phase == 1 || s.phase == 5) ==> Reset(line).value) ==>
      r.state.report == s.report && r.state.pending == s.pending
    ensures s.phase == 1 && !Reset(line).value ==>
      r.state.report == s.report[2 := 0xFF][3 := 0xFF] && r.state.pending && r.state.phase == 0
    ensures s.phase == 5 && !Reset(line).value ==>
      r.state.report == s.report[2 := 0xFF][3 := 0xFE] && r.state.pending && r.state.phase == 0
    ensures s.phase == 17 ==>
      r.state == s.(report := s.report[2 := EncodeReading(s.scratch[0], s.scratch[1])[0]]
                                      [3 := EncodeReading(s.scratch[0], s.scratch[1])[1]],
                     pending := true, phase := 0) &&
      r.trace == []
  {
    if s.phase == 0 then Step(s, [])
    else if s.phase <= 7 then SetupStep(s, line)
    else ReadoutStep(s, line)
  }

  /** States 1 to 7: reset, SKIP ROM, CONVERT T, poll, reset, SKIP ROM,
      READ SCRATCHPAD. */
  function SetupStep(s: Emulator, line: seq<bool>): (r: Step)
    requires Valid(s) && 1 <= s.phase <= 7
    ensures Valid(r.state)
    ensures r.state.phase == 0 || r.state.phase == s.phase + 1 || (s.phase == 4 && r.state.phase == 4)
    ensures s.phase == 4 ==> (r.state.phase == 5 <==> SampledByte(line) == 0xFF)
    ensures s.phase == 4 && SampledByte(line) != 0xFF ==> r.state == s
    ensures s.phase == 2 || s.phase == 3 || s.phase == 6 || s.phase == 7 ==> r.state.phase == s.phase + 1
    ensures (s.phase == 1 || s.phase == 5) ==> (r.state.phase != 0 <==> Reset(line).value)
    ensures r.state.ledstate == s.ledstate && r.state.led == s.led
    ensures s.pending ==> r.state.pending
    ensures ((s.phase == 1 || s.phase == 5) ==> Reset(line).value) ==>
      r.state.report == s.report && r.state.pending == s.pending
    ensures s.phase == 1 && !Reset(line).value ==>
      r.state.report == s.report[2 := 0xFF][3 := 0xFF] && r.state.pending && r.state.phase == 0
    ensures s.phase == 5 && !Reset(line).value ==>
      r.state.report == s.report[2 := 0xFF][3 := 0xFE] && r.state.pending && r.state.phase == 0
  {
    var p := s.phase;
    if p == 1 || p == 5 then
      var rst := Reset(line);
      if rst.value then Step(s.(phase := p + 1), rst.trace)
      else Step(Fail(s, if p == 1 then 0xFF else 0xFE), rst.trace)
    else if p == 4 then
      Step(if SampledByte(line) == 0xFF then s.(phase := 5) else s, ReadSlots(8))
    else
      var cmd := if p == 3 then CONVERT_T else if p == 7 then READ_SCRATCHPAD else SKIP_ROM;
      Step(s.(phase := p + 1), WriteSlots(BitsOf(cmd)))
  }

  /** States 8 to 17: read the nine scratchpad bytes, then encode the
      reading into the report and make it pending. */
  function ReadoutStep(s: Emulator, line: seq<bool>): (r: Step)
    requires Valid(s) && 8 <= s.phase
    ensures Valid(r.state)
    ensures r.state.phase == 0 || r.state.phase == s.phase + 1
    ensures s.phase <= 16 ==>
      r.state.phase == s.phase + 1 && r.state.scratch == s.scratch[s.phase - 8 := SampledByte(line)]
    ensures r.state.ledstate == s.ledstate && r.state.led == s.led
    ensures s.pending ==> r.state.pending
    ensures s.phase != 17 ==> r.state.report == s.report && r.state.pending == s.pending
    ensures s.phase == 17 ==>
      r.state == s.(report := s.report[2 := EncodeReading(s.scratch[0], s.scratch[1])[0]]
                                      [3 := EncodeReading(s.scratch[0], s.scratch[1])[1]],
                     pending := true, phase := 0) &&
      r.trace == []
  {
    var p := s.phase;
    if p < 17 then
      Step(s.(scratch := s.scratch[p - 8 := SampledByte(line)], phase := p + 1), ReadSlots(8))
    else
      var t := EncodeReading(s.scratch[0], s.scratch[1]);
      Step(s.(report := s.report[2 := t[0]][3 := t[1]], pending := true, phase := 0), [])
  }

  /** One iteration of the `while (1)` loop of `main`. */
  datatype Iteration = Iteration(packet: Option<seq<byte>>, state: Emulator, trace: seq<Event>)

  function LoopStep(s: Emulator, ready: bool, line: seq<bool>): (r: Iteration)
    requires Valid(s)
    ensures Valid(r.state)
    ensures r.packet == Deliver(s, ready).packet
  {
    var d := Deliver(s, ready);
    var t := TxStep(d.state, line);
    Iteration(d.packet, t.state, t.trace)
  }

  // ---------------------------------------------------------------------
  // Properties across calls

  /** The reading encoding is the 16-bit scratchpad value shifted left by 4
      and truncated to 16 bits, sent most significant byte first. */
  lemma EncodeIsShift(lsb: byte, msb: byte)
    ensures var out := EncodeReading(lsb, msb);
      (out[0] as bv16 << 8) | out[1] as bv16 == ((msb as bv16 << 8) | lsb as bv16) << 4
  {
  }

  /** 0x0550 (85 °C, the DS18B20's power-on value) becomes 0x5500. */
  lemma EncodeExample()
    ensures EncodeReading(0x50, 0x05) == [0x55, 0x00]
  {
  }

  /** After the second initialisation query, with no transaction running,
      the next two loop iterations with a free endpoint send "TEMPerF1" and
      ".2MPerF1", and nothing further is pending. */
  lemma InitReplyIsTwoPackets(s: Emulator, line1: seq<bool>, line2: seq<bool>)
    requires Valid(s) && s.phase == 0
    ensures var t := WriteReport(s, INIT_QUERY_2).state;
      var i1 := LoopStep(t, true, line1);
      var i2 := LoopStep(i1.state, true, line2);
      i1.packet == Some(TEMPER_F1) &&
      i2.packet == Some([CHAR_DOT, CHAR_TWO] + TEMPER_F1[2..]) &&
      !i2.state.pending && i2.state.phase == 0
  {
    var t := WriteReport(s, INIT_QUERY_2).state;
    var d1 := Deliver(t, true);
    assert d1.state.report == [CHAR_DOT, CHAR_TWO] + TEMPER_F1[2..];
    var d2 := Deliver(d1.state, true);
  }

  /** A pending reply goes out in at most two deliveries to a free endpoint:
      the ".2" rewrite does not start with 'T'. */
  lemma DeliveryEnds(s: Emulator)
    requires Valid(s)
    ensures !Deliver(Deliver(s, true).state, true).state.pending
  {
  }

  /** The four commands of the transaction reach the sensor intact: what a
      DS18B20 decodes from the slots of states 2, 3, 6 and 7 is SKIP ROM,
      CONVERT T, SKIP ROM and READ SCRATCHPAD. */
  lemma CommandsSent(s: Emulator, line: seq<bool>)
    requires Valid(s) && s.phase in {2, 3, 6, 7}
    ensures DeviceReceives(TxStep(s, line).trace) ==
      BitsOf(if s.phase == 3 then CONVERT_T else if s.phase == 7 then READ_SCRATCHPAD else SKIP_ROM)
  {
    var cmd := if s.phase == 3 then CONVERT_T else if s.phase == 7 then READ_SCRATCHPAD else SKIP_ROM;
    assert TxStep(s, line).trace == WriteSlots(BitsOf(cmd));
    WriteRoundTrip(cmd);
  }

  /** The transaction steps applied to successive slices of the sensor's
      levels, one per loop iteration. */
  function RunTx(s: Emulator, lines: seq<seq<bool>>): (r: Emulator)
    requires Valid(s)
    ensures Valid(r)
    decreases |lines|
  {
    if |lines| == 0 then s else RunTx(TxStep(s, lines[0]).state, lines[1..])
  }

  lemma {:induction false} RunTxAppend(s: Emulator, a: seq<seq<bool>>, b: seq<seq<bool>>)
    requires Valid(s)
    ensures RunTx(s, a + b) == RunTx(RunTx(s, a), b)
    decreases |a|
  {
    if |a| == 0 {
      assert a + b == b;
    } else {
      assert (a + b)[0] == a[0];
      assert (a + b)[1..] == a[1..] + b;
      RunTxAppend(TxStep(s, a[0]).state, a[1..], b);
    }
  }

  /** What a DS18B20 presents to one transaction: presence, an idle poll
      (the line stays high, so the poll reads 0xFF: conversion done),
      presence again, then the nine scratchpad bytes, least significant bit
      first. */
  function SetupLines(): seq<seq<bool>>
  {
    [[false], [], [], [], [false], [], []]
  }

  function ScratchpadLines(sp: seq<byte>): (lines: seq<seq<bool>>)
    ensures |lines| == |sp|
  {
    if |sp| == 0 then [] else ScratchpadLines(sp[..|sp| - 1]) + [BitsOf(sp[|sp| - 1])]
  }

  lemma IdleLineReadsOnes()
    ensures SampledByte([]) == 0xFF
  {
    assert LevelsFrom([], 0) == [true, true, true, true, true, true, true, true];
  }

  /** States 1 to 7 with a sensor present bring the transaction to state 8
      and touch nothing else. */
  lemma SetupSteps(s: Emulator)
    requires Valid(s) && s.phase == 1
    ensures RunTx(s, SetupLines()) == s.(phase := 8)
  {
    var convert: seq<seq<bool>> := [[false], [], [], []];
    var select: seq<seq<bool>> := [[false], [], []];
    assert SetupLines() == convert + select;
    RunTxAppend(s, convert, select);
    ConvertSteps(s);
    SelectSteps(s.(phase := 5));
  }

  /** States 1 to 4: reset, SKIP ROM, CONVERT T, and a poll that finds the
      conversion done. */
  lemma ConvertSteps(s: Emulator)
    requires Valid(s) && s.phase == 1
    ensures RunTx(s, [[false], [], [], []]) == s.(phase := 5)
  {
    IdleLineReadsOnes();
    var s2 := TxStep(s, [false]).state;
    assert s2 == s.(phase := 2);
    var s4 := TxStep(TxStep(s2, []).state, []).state;
    assert s4 == s.(phase := 4);
    assert TxStep(s4, []).state == s.(phase := 5);
  }

  /** States 5 to 7: reset, SKIP ROM, READ SCRATCHPAD. */
  lemma SelectSteps(s: Emulator)
    requires Valid(s) && s.phase == 5
    ensures RunTx(s, [[false], [], []]) == s.(phase := 8)
  {
    var s6 := TxStep(s, [false]).state;
    assert s6 == s.(phase := 6);
    assert TxStep(TxStep(s6, []).state, []).state == s.(phase := 8);
  }

  /** States 8 to 16 store the bytes read, in order, into the scratch
      buffer. */
  lemma {:induction false} ScratchpadSteps(s: Emulator, sp: seq<byte>)
    requires Valid(s) && s.phase == 8 && |sp| <= 9
    ensures RunTx(s, ScratchpadLines(sp)) == s.(scratch := sp + s.scratch[|sp|..], phase := 8 + |sp|)
  {
    if |sp| > 0 {
      var front := sp[..|sp| - 1];
      ScratchpadSteps(s, front);
      ScratchpadNext(s, ScratchpadLines(front), sp);
    }
  }

  /** One more byte after the levels `done`, which stored all but the last
      byte of `sp`. */
  lemma ScratchpadNext(s: Emulator, done: seq<seq<bool>>, sp: seq<byte>)
    requires Valid(s) && s.phase == 8 && 0 < |sp| <= 9
    requires done == ScratchpadLines(sp[..|sp| - 1])
    requires RunTx(s, done) == s.(scratch := sp[..|sp| - 1] + s.scratch[|sp| - 1..], phase := 7 + |sp|)
    ensures RunTx(s, ScratchpadLines(sp)) == s.(scratch := sp + s.scratch[|sp|..], phase := 8 + |sp|)
  {
    var last := sp[|sp| - 1];
    assert ScratchpadLines(sp) == done + [BitsOf(last)];
    RunTxAppend(s, done, [BitsOf(last)]);
    ScratchpadStore(s, sp);
  }

  /** The last byte of `sp` lands after the ones already stored. */
  lemma ScratchpadStore(s: Emulator, sp: seq<byte>)
    requires Valid(s) && s.phase == 8 && 0 < |sp| <= 9
    ensures RunTx(s.(scratch := sp[..|sp| - 1] + s.scratch[|sp| - 1..], phase := 7 + |sp|), [BitsOf(sp[|sp| - 1])]) ==
      s.(scratch := sp + s.scratch[|sp|..], phase := 8 + |sp|)
  {
    var mid := s.(scratch := sp[..|sp| - 1] + s.scratch[|sp| - 1..], phase := 7 + |sp|);
    ReadStep(mid, sp[|sp| - 1]);
    StoreLast(sp, s.scratch);
  }

  /** Writing the last byte of `sp` over a buffer that holds the rest of
      `sp` followed by the old contents. */
  lemma StoreLast(sp: seq<byte>, buffer: seq<byte>)
    requires 0 < |sp| <= |buffer|
    ensures (sp[..|sp| - 1] + buffer[|sp| - 1..])[|sp| - 1 := sp[|sp| - 1]] == sp + buffer[|sp|..]
  {
  }

  /** One of states 8 to 16: the byte the sensor sends lands in the scratch
      buffer at the state's offset. */
  lemma ReadStep(m: Emulator, b: byte)
    requires Valid(m) && 8 <= m.phase <= 16
    ensures RunTx(m, [BitsOf(b)]) == m.(scratch := m.scratch[m.phase - 8 := b], phase := m.phase + 1)
  {
    ReadWriteOrder(BitsOf(b), b);
    assert SampledByte(BitsOf(b)) == b;
    assert [BitsOf(b)][1..] == [];
  }

  /** The scratchpad bytes `sp` sent by a sensor that answers: states 1
      to 16 reach state 17 with `sp` in the scratch buffer. */
  lemma TransactionReads(s: Emulator, sp: seq<byte>)
    requires Valid(s) && s.phase == 1 && |sp| == 9
    ensures RunTx(s, SetupLines() + ScratchpadLines(sp)) == s.(scratch := sp, phase := 17)
  {
    SetupSteps(s);
    var s8 := s.(phase := 8);
    ScratchpadSteps(s8, sp);
    RunTxAppend(s, SetupLines(), ScratchpadLines(sp));
    assert sp + s8.scratch[9..] == sp;
  }

  /** A whole transaction against a sensor that answers: seventeen
      transaction steps take state 1 back to 0, with the reading of
      scratchpad bytes 0 and 1 in report bytes 2 and 3 and the report
      pending. */
  lemma Transaction(s: Emulator, sp: seq<byte>)
    requires Valid(s) && s.phase == 1 && |sp| == 9
    ensures var r := RunTx(s, SetupLines() + ScratchpadLines(sp) + [[]]);
      r.phase == 0 && r.pending && r.scratch == sp &&
      r.report == s.report[2 := EncodeReading(sp[0], sp[1])[0]][3 := EncodeReading(sp[0], sp[1])[1]] &&
      r.ledstate == s.ledstate && r.led == s.led
  {
    TransactionReads(s, sp);
    RunTxAppend(s, SetupLines() + ScratchpadLines(sp), [[]]);
  }

  /** A pending reply stays pending through any transaction steps. */
  lemma {:induction false} PendingStays(s: Emulator, lines: seq<seq<bool>>)
    requires Valid(s) && s.pending
    ensures RunTx(s, lines).pending
    decreases |lines|
  {
    if |lines| > 0 {
      PendingStays(TxStep(s, lines[0]).state, lines[1..]);
    }
  }

  /** The packets handed to the endpoint over several loop iterations, in
      order, and the state after them. */
  datatype Run = Run(packets: seq<seq<byte>>, state: Emulator)

  /** Loop iterations against an endpoint that is always `ready` (or never),
      one slice of the sensor's levels per iteration. */
  function RunLoop(s: Emulator, ready: bool, lines: seq<seq<bool>>): (r: Run)
    requires Valid(s)
    ensures Valid(r.state)
    decreases |lines|
  {
    if |lines| == 0 then Run([], s)
    else
      var i := LoopStep(s, ready, lines[0]);
      var rest := RunLoop(i.state, ready, lines[1..]);
      Run((if i.packet.Some? then [i.packet.value] else []) + rest.packets, rest.state)
  }

  /** While nothing is pending, a loop iteration sends nothing and is just
      a transaction step. */
  lemma QuietStep(s: Emulator, ready: bool, line: seq<bool>)
    requires Valid(s) && !s.pending
    ensures LoopStep(s, ready, line).packet == None
    ensures LoopStep(s, ready, line).state == TxStep(s, line).state
  {
  }

  /** If no reply is pending before the last of several iterations, none
      was pending before any of them: the iterations send nothing and
      amount to the transaction steps alone. */
  lemma {:induction false} QuietRun(s: Emulator, ready: bool, lines: seq<seq<bool>>)
    requires Valid(s) && |lines| > 0 && !RunTx(s, lines[..|lines| - 1]).pending
    ensures RunLoop(s, ready, lines) == Run([], RunTx(s, lines))
    decreases |lines|
  {
    var rest := lines[1..];
    var t := TxStep(s, lines[0]).state;
    if s.pending {
      PendingStays(s, lines[..|lines| - 1]);
    }
    QuietUnfold(s, ready, lines);
    if |rest| > 0 {
      RunTxFront(s, lines);
      QuietRun(t, ready, rest);
    }
  }

  /** With nothing pending, the first of several iterations is a bare
      transaction step. */
  lemma QuietUnfold(s: Emulator, ready: bool, lines: seq<seq<bool>>)
    requires Valid(s) && !s.pending && |lines| > 0
    ensures RunLoop(s, ready, lines) == RunLoop(TxStep(s, lines[0]).state, ready, lines[1..])
  {
    QuietStep(s, ready, lines[0]);
  }

  /** Dropping the last line of a run commutes with taking its first step. */
  lemma RunTxFront(s: Emulator, lines: seq<seq<bool>>)
    requires Valid(s) && |lines| > 1
    ensures RunTx(s, lines[..|lines| - 1]) == RunTx(TxStep(s, lines[0]).state, lines[1..][..|lines| - 2])
  {
    assert lines[..|lines| - 1][1..] == lines[1..][..|lines| - 2];
  }

  /** The transaction as the main loop runs it, when no earlier reply is
      pending: seventeen loop iterations send nothing and end as the
      transaction steps do, with the reading pending; the next iteration
      with a free endpoint sends the report carrying it. */
  lemma LoopTransaction(s: Emulator, sp: seq<byte>, ready: bool, line: seq<bool>)
    requires Valid(s) && s.phase == 1 && !s.pending && |sp| == 9
    ensures var lines := SetupLines() + ScratchpadLines(sp) + [[]];
      var r := RunLoop(s, ready, lines);
      r.packets == [] && r.state == RunTx(s, lines) &&
      LoopStep(r.state, true, line).packet == Some(r.state.report)
  {
    var lines := SetupLines() + ScratchpadLines(sp) + [[]];
    TransactionReads(s, sp);
    assert lines[..|lines| - 1] == SetupLines() + ScratchpadLines(sp);
    QuietRun(s, ready, lines);
    Transaction(s, sp);
  }

  /** A temperature query that arrives while an earlier reply is still
      pending does not withdraw it: the very next iteration with a free
      endpoint sends the freshly cleared report 80 02 00 00 00 00 00 00,
      before any reading has been taken. */
  lemma QueryWhilePending(s: Emulator, line: seq<bool>)
    requires Valid(s) && s.pending
    ensures LoopStep(WriteReport(s, TEMPERATURE_QUERY).state, true, line).packet ==
      Some([0x80, 0x02, 0, 0, 0, 0, 0, 0])
  {
  }

  /** The power-up state is idle, with nothing to send. */
  lemma StartIsIdle()
    ensures Valid(START) && START.phase == 0 && !START.pending
  {
  }
}

=== FILE: timer.dfy ===
/** The Timer-1 time base of `timer.c`: an overflow handler that keeps a
    millisecond count with a fractional carry, and `micros()` computed from a
    snapshot of the overflow count and the timer registers.

    The CPU clock `F_CPU` is a parameter (`fcpu`, in Hz). `unsigned long` is
    32 bits wide and `unsigned char` 8 bits wide on the AVR; both wrap-arounds
    are written out. */
module Timer {
  import opened Bits

  /** 2^32: the modulus of `unsigned long` arithmetic. */
  const WORD: nat := 0x1_0000_0000

  /** The timer counts CPU cycles divided by this prescaler (CPU_CK/64). */
  const PRESCALER: nat := 64

  /** `FRACT_MAX`, `1000 >> 3`: the fractional part counts in units of 8 µs,
      and 125 of them make 1 ms. */
  const FRACT_MAX: nat := 125

  /** The range of the total `millis * FRACT_MAX + fract`: the 32-bit
      millisecond count times 125. */
  const SPAN: nat := 536870912000

  /** `clockCyclesPerMicrosecond()`, which the macros divide by: the clock
      must run at 1 MHz or more for them to be defined. */
  predicate ValidClock(fcpu: nat)
  {
    fcpu >= 1000000
  }

  function CyclesPerMicrosecond(fcpu: nat): (c: nat)
    requires ValidClock(fcpu)
    ensures c >= 1
  {
    fcpu / 1000000
  }

  /** `MICROSECONDS_PER_TIMER1_OVERFLOW`: 256 timer ticks of 64 cycles. */
  function MicrosPerOverflow(fcpu: nat): nat
    requires ValidClock(fcpu)
  {
    PRESCALER * 256 / CyclesPerMicrosecond(fcpu)
  }

  /** The two increments the handler adds per overflow: `MILLIS_INC`, whole
      milliseconds, and `FRACT_INC`, the leftover microseconds in 8 µs units
      (`>> 3` of a non-negative value). */
  datatype Rates = Rates(millisInc: nat, fractInc: nat)

  function RatesOf(fcpu: nat): (r: Rates)
    requires ValidClock(fcpu)
    ensures r.fractInc < FRACT_MAX
    ensures PerOverflow(r) == MicrosPerOverflow(fcpu) / 8
  {
    var us := MicrosPerOverflow(fcpu);
    Rates(us / 1000, (us % 1000) / 8)
  }

  /** One overflow's worth of time in 8 µs units, as the handler accounts
      for it. */
  function PerOverflow(r: Rates): nat
  {
    r.millisInc * FRACT_MAX + r.fractInc
  }

  /** `timer1_overflow_count`, `timer1_millis` and `timer1_fract`. */
  datatype Counters = Counters(overflowCount: nat, millis: nat, fract: nat)

  /** The counters fit their C types. */
  predicate Valid(c: Counters)
  {
    c.overflowCount < WORD && c.millis < WORD && c.fract < 256
  }

  /** The initial values of the three globals. */
  const ZERO: Counters := Counters(0, 0, 0)

  /** Milliseconds and fraction together, in 8 µs units. */
  function Total(c: Counters): nat
  {
    c.millis * FRACT_MAX + c.fract
  }

  /** The `TIMER1_OVF_vect` handler, for the increments of clock `fcpu`. */
  function Overflow(fcpu: nat, c: Counters): (r: Counters)
    requires ValidClock(fcpu) && Valid(c)
    ensures Valid(r)
    ensures r.overflowCount == (c.overflowCount + 1) % WORD
    ensures r.millis == (c.millis + RatesOf(fcpu).millisInc) % WORD
         || r.millis == (c.millis + RatesOf(fcpu).millisInc + 1) % WORD
    ensures c.fract < FRACT_MAX ==> r.fract < FRACT_MAX
    ensures c.fract < FRACT_MAX ==>
      Total(r) == (Total(c) + PerOverflow(RatesOf(fcpu))) % SPAN
  {
    Accumulate(RatesOf(fcpu), c)
  }

  /** The handler's arithmetic: add both increments, carry a whole
      millisecond out of the fraction when it reaches `FRACT_MAX`. */
  function Accumulate(rates: Rates, c: Counters): (r: Counters)
    requires rates.fractInc < FRACT_MAX && Valid(c)
    ensures Valid(r)
    ensures r.overflowCount == (c.overflowCount + 1) % WORD
    ensures r.millis == (c.millis + rates.millisInc) % WORD
         || r.millis == (c.millis + rates.millisInc + 1) % WORD
    ensures c.fract < FRACT_MAX ==> r.fract < FRACT_MAX
    ensures c.fract < FRACT_MAX ==>
      Total(r) == (Total(c) + PerOverflow(rates)) % SPAN
  {
    var r := Handler(rates, c);
    HandlerFacts(rates, c);
    HandlerConserves(rates, c);
    r
  }

  /** The body of the handler, in unsigned 32- and 8-bit arithmetic. */
  function Handler(rates: Rates, c: Counters): Counters
  {
    var m := (c.millis + rates.millisInc) % WORD;
    var f := (c.fract + rates.fractInc) % 256;
    if f >= FRACT_MAX then Counters((c.overflowCount + 1) % WORD, (m + 1) % WORD, f - FRACT_MAX)
    else Counters((c.overflowCount + 1) % WORD, m, f)
  }

  lemma HandlerFacts(rates: Rates, c: Counters)
    requires rates.fractInc < FRACT_MAX && Valid(c)
    ensures Valid(Handler(rates, c))
    ensures Handler(rates, c).overflowCount == (c.overflowCount + 1) % WORD
    ensures Handler(rates, c).millis == (c.millis + rates.millisInc) % WORD
         || Handler(rates, c).millis == (c.millis + rates.millisInc + 1) % WORD
    ensures c.fract < FRACT_MAX ==> Handler(rates, c).fract < FRACT_MAX
  {
    SuccMod(c.millis + rates.millisInc);
  }

  lemma HandlerConserves(rates: Rates, c: Counters)
    requires rates.fractInc < FRACT_MAX && Valid(c)
    ensures c.fract < FRACT_MAX ==> Total(Handler(rates, c)) == (Total(c) + PerOverflow(rates)) % SPAN
  {
    if c.fract < FRACT_MAX {
      HandlerConservesBelow(rates, c);
    }
  }

  lemma HandlerConservesBelow(rates: Rates, c: Counters)
    requires rates.fractInc < FRACT_MAX && Valid(c) && c.fract < FRACT_MAX
    ensures Total(Handler(rates, c)) == (Total(c) + PerOverflow(rates)) % SPAN
  {
    var g := c.fract + rates.fractInc;
    var a := c.millis + rates.millisInc;
    assert (c.fract + rates.fractInc) % 256 == g;
    assert Total(c) + PerOverflow(rates) == a * FRACT_MAX + g;
    if g >= FRACT_MAX {
      assert (a % WORD + 1) % WORD == (a + 1) % WORD by {
        SuccMod(a);
      }
      assert Handler(rates, c).millis == (a + 1) % WORD;
      ScaledMod(a + 1, g - FRACT_MAX);
    } else {
      ScaledMod(a, g);
    }
  }

  /** Euclidean division by `SPAN` is determined by any quotient and
      in-range remainder. */
  lemma SpanDivision(x: int, q: int, r: int)
    requires x == q * SPAN + r && 0 <= r < SPAN
    ensures x % SPAN == r && x / SPAN == q
  {
  }

  lemma WordDivision(x: int, q: int, r: int)
    requires x == q * WORD + r && 0 <= r < WORD
    ensures x % WORD == r && x / WORD == q
  {
  }

  /** Reducing a millisecond count modulo 2^32 is reducing the total modulo
      2^32 * 125, when the fraction is below 125. */
  lemma ScaledMod(a: nat, g: nat)
    requires g < FRACT_MAX
    ensures (a % WORD) * FRACT_MAX + g == (a * FRACT_MAX + g) % SPAN
  {
    var q := a / WORD;
    var r := a % WORD;
    WordDivision(a, q, r);
    assert a * FRACT_MAX + g == q * SPAN + (r * FRACT_MAX + g);
    SpanDivision(a * FRACT_MAX + g, q, r * FRACT_MAX + g);
  }

  /** The counters after `n` overflows from the initial values. */
  function Run(fcpu: nat, n: nat): (c: Counters)
    requires ValidClock(fcpu)
    ensures Valid(c)
  {
    if n == 0 then ZERO else Overflow(fcpu, Run(fcpu, n - 1))
  }

  /** `n` overflows accumulated at fixed increments `rates`. */
  function RunAt(rates: Rates, n: nat): (c: Counters)
    requires rates.fractInc < FRACT_MAX
    ensures Valid(c)
  {
    if n == 0 then ZERO else Accumulate(rates, RunAt(rates, n - 1))
  }

  lemma {:induction false} RunIsRunAt(fcpu: nat, n: nat)
    requires ValidClock(fcpu)
    ensures Run(fcpu, n) == RunAt(RatesOf(fcpu), n)
  {
    if n > 0 {
      RunIsRunAt(fcpu, n - 1);
    }
  }

  /** Adding to a reduced total and reducing again is reducing once. */
  lemma AddMod(t: nat, k: nat)
    ensures (t % SPAN + k) % SPAN == (t + k) % SPAN
  {
    var q := t / SPAN;
    var r := t % SPAN;
    var q2 := (r + k) / SPAN;
    var r2 := (r + k) % SPAN;
    SpanDivision(r + k, q2, r2);
    assert t + k == (q + q2) * SPAN + r2;
    SpanDivision(t + k, q + q2, r2);
  }

  lemma {:induction false} RunAtConserves(rates: Rates, n: nat)
    requires rates.fractInc < FRACT_MAX
    ensures RunAt(rates, n).fract < FRACT_MAX
    ensures RunAt(rates, n).overflowCount == n % WORD
    ensures Total(RunAt(rates, n)) == (n * PerOverflow(rates)) % SPAN
  {
    if n > 0 {
      RunAtConserves(rates, n - 1);
      var k := PerOverflow(rates);
      MulSucc(n - 1, k);
      RunAtStep(rates, RunAt(rates, n - 1), n - 1, (n - 1) * k);
    }
  }

  /** One more overflow keeps the conservation identity. */
  lemma RunAtStep(rates: Rates, c: Counters, m: nat, t: nat)
    requires rates.fractInc < FRACT_MAX && Valid(c) && c.fract < FRACT_MAX
    requires c.overflowCount == m % WORD && Total(c) == t % SPAN
    ensures Accumulate(rates, c).fract < FRACT_MAX
    ensures Accumulate(rates, c).overflowCount == (m + 1) % WORD
    ensures Total(Accumulate(rates, c)) == (t + PerOverflow(rates)) % SPAN
  {
    AddMod(t, PerOverflow(rates));
    SuccMod(m);
  }

  lemma MulSucc(m: nat, k: nat)
    ensures m * k >= 0 && (m + 1) * k == m * k + k
  {
  }

  lemma SuccMod(m: nat)
    ensures (m + 1) % WORD == (m % WORD + 1) % WORD
  {
    var q := m / WORD;
    var c := m % WORD;
    WordDivision(m, q, c);
    if c + 1 < WORD {
      WordDivision(m + 1, q, c + 1);
    } else {
      WordDivision(m + 1, q + 1, 0);
    }
  }

  /** Conservation: after `n` overflows the counters hold exactly `n` times
      one overflow's worth of time, modulo the 32-bit wrap of the millisecond
      count; the overflow count is `n` modulo 2^32 and the fraction stays
      below 125. */
  lemma RunConserves(fcpu: nat, n: nat)
    requires ValidClock(fcpu)
    ensures Run(fcpu, n).fract < FRACT_MAX
    ensures Run(fcpu, n).overflowCount == n % WORD
    ensures Total(Run(fcpu, n)) == (n * PerOverflow(RatesOf(fcpu))) % SPAN
  {
    RunIsRunAt(fcpu, n);
    RunAtConserves(RatesOf(fcpu), n);
  }

  /** Before the 32-bit millisecond count wraps, the identity is exact:
      `millis * FRACT_MAX + fract == count * (MILLIS_INC * FRACT_MAX + FRACT_INC)`. */
  lemma RunConservesExactly(fcpu: nat, n: nat)
    requires ValidClock(fcpu)
    requires n * PerOverflow(RatesOf(fcpu)) < SPAN
    ensures Total(Run(fcpu, n)) == n * PerOverflow(RatesOf(fcpu))
  {
    RunConserves(fcpu, n);
    var x := n * PerOverflow(RatesOf(fcpu));
    SpanDivision(x, 0, x);
  }

  /** `millis()`: the millisecond count the handler maintains. */
  function Millis(c: Counters): nat
  {
    c.millis
  }

  /** `millis()` after `n` overflows is the elapsed time, as the handler
      accounts for it, rounded down to whole milliseconds, modulo 2^32. */
  lemma MillisAfterRun(fcpu: nat, n: nat)
    requires ValidClock(fcpu)
    ensures Millis(Run(fcpu, n)) == (n * PerOverflow(RatesOf(fcpu)) / FRACT_MAX) % WORD
  {
    RunConserves(fcpu, n);
    var c := Run(fcpu, n);
    var x := n * PerOverflow(RatesOf(fcpu));
    assert c.millis * FRACT_MAX + c.fract == x % SPAN;
    DivOfMod(x);
  }

  lemma DivOfMod(x: nat)
    ensures (x % SPAN) / FRACT_MAX == (x / FRACT_MAX) % WORD
  {
    var q := x / SPAN;
    var r := x % SPAN;
    assert x == q * SPAN + r;
    assert x / FRACT_MAX == q * WORD + r / FRACT_MAX;
  }

  // ---------------------------------------------------------------------
  // micros()

  /** TOV1, the Timer-1 overflow flag, is bit 2 of TIFR on the ATtiny85
      (a value from the device header, which is not part of this model). */
  const TOV1_MASK: byte := 0x04

  /** `((m << 8) + t) * (64 / clockCyclesPerMicrosecond())` in 32-bit
      unsigned arithmetic. */
  function MicrosOf(fcpu: nat, m: nat, t: nat): nat
    requires ValidClock(fcpu)
  {
    ((m * 256 + t) * (PRESCALER / CyclesPerMicrosecond(fcpu))) % WORD
  }

  /** `micros()` as written: the overflow count is bumped only when
      `(TIFR & _BV(TOV1)) & (t < 255)` is non-zero; that is a bitwise `&` of
      the masked flag (0 or 4) with the comparison (0 or 1), which has no
      bit in common, so the flag never matters. */
  function MicrosAsWritten(fcpu: nat, count: nat, tcnt: byte, tifr: byte): (us: nat)
    requires ValidClock(fcpu) && count < WORD
    ensures us < WORD
    ensures us == MicrosOf(fcpu, count, tcnt as nat)
  {
    var t := tcnt as nat;
    var flag := (tifr & TOV1_MASK) & (if t < 255 then 1 else 0);
    assert flag == 0 by {
      assert (tifr & TOV1_MASK) & 1 == 0;
    }
    var m := (count + if flag != 0 then 1 else 0) % WORD;
    MicrosOf(fcpu, m, t)
  }

  /** `micros()` with the logical `&&` the overflow compensation needs: if
      the timer has overflowed but the handler has not yet run, count that
      overflow. Where no overflow is pending it agrees with the code as
      written. */
  function Micros(fcpu: nat, count: nat, tcnt: byte, tifr: byte): (us: nat)
    requires ValidClock(fcpu) && count < WORD
    ensures us < WORD
    ensures tifr & TOV1_MASK == 0 || tcnt == 255 ==> us == MicrosAsWritten(fcpu, count, tcnt, tifr)
  {
    var t := tcnt as nat;
    var m := (count + if tifr & TOV1_MASK != 0 && t < 255 then 1 else 0) % WORD;
    MicrosOf(fcpu, m, t)
  }

  /** What the compensation is for: a reading taken while an overflow is
      pending equals the reading taken once the handler has counted it and
      cleared the flag, so `micros()` does not depend on whether the
      interrupt has been serviced yet. */
  lemma MicrosCountsPendingOverflow(fcpu: nat, count: nat, tcnt: byte)
    requires ValidClock(fcpu) && count < WORD && tcnt != 255
    ensures Micros(fcpu, count, tcnt, TOV1_MASK) == Micros(fcpu, (count + 1) % WORD, tcnt, 0)
  {
  }

  /** A concrete case at 16.5 MHz (the Digispark clock): the overflow flag
      is pending with TCNT1 = 3 and the handler has counted 5 overflows. The
      code as written reports 5132 µs, and 6156 µs once the handler has run,
      so its reading depends on whether the interrupt has been serviced;
      counting the pending overflow gives 6156 µs both times. */
  lemma MicrosPendingOverflowExample()
    ensures MicrosAsWritten(16500000, 5, 3, TOV1_MASK) == 5132
    ensures MicrosAsWritten(16500000, 6, 3, 0) == 6156
    ensures Micros(16500000, 5, 3, TOV1_MASK) == 6156
  {
    assert CyclesPerMicrosecond(16500000) == 16;
  }
}
